=== FILE: README.md ===
# Cosmic-Conductor core, modelled in Dafny

Cosmic-Conductor is a command-line client for the COSMIC Wayland compositor. Its driver
(src/main.rs) binds the COSMIC toplevel-info and workspace-manager globals from the
registry and performs round-trips until the state a command needs has arrived. It then
prints toplevels, outputs or workspace groups; its `workspaces` command prints only "not
implemented". The driver declares only the `args` and `cosmic` modules (src/main.rs:1-2).
The output, workspace, toplevel and printer code (src/output.rs, src/workspace.rs,
src/toplevel.rs, src/print/) is library code that the driver never calls. That includes
`move_to` (src/workspace.rs:187-281), which is modelled as the library function it is.
This project models that core as pure functions over an immutable mirror of the
compositor state:

- `Store` (store.dfy): the mirror the commands read. It holds outputs and their
  information, workspace groups with their ordered members, the mirrored workspaces, the
  toplevels, and the optional workspace-manager handle.
- `Outputs` (output.dfy): the display name of an output, the lookup of an output by
  display name, and the `Display:` line.
- `Workspaces` (workspace.dfy): resolving a workspace from a name and an
  optional display, the tiling and membership queries, and `move_to`. `move_to` either
  returns early (`Skipped`), sends the two requests (`Issued`), or aborts the process
  (`Panicked`).
- `Reorder` (reorder.dfy): what a relative move request does to a group's order, read as
  "place the workspace immediately before or after the reference member". It also holds
  the corrected translation of a target position into a request (see Findings).
- `WorkspaceScenarios` (workspace_scenarios.dfy): concrete groups and the exact requests
  `move_to` sends for them.
- `Human` and `Print` (human.dfy, print.dfy): the human-readable struct and list
  printers. Each printer is a value. Each operation returns the next printer state and the
  text it wrote. `ItemsText` and `ListText` give the text of a whole list in closed form,
  and `StructText` that of a whole struct of optional fields. Each written value reads
  back from its line (`Text.Between`).
- `Toplevels` (toplevel.dfy): which toplevels a listing shows, and the text of the listing.
- `Cosmic` (cosmic.dfy): the registry binder. It covers which globals it binds and at which
  version, how removals clear them, and the `State` wire decoding.
- `App` (main.dfy): the completion predicate of each command, and the waiting loop with its
  doubling, capped sleep. The server is replaced by a finite sequence of rounds.

## Source quirks

A few behaviours of the code look unintended. The model follows the code as written:

- Without a display, `get_workspace` returns the index of the group, not of the member.
- A move within the group that follows from that index can therefore reach past the end
  of the group and panic. `WorkspaceScenarios.MoveWithoutDisplayPanics` shows this.
- A move to position 1 of a one-member group on another display panics. No member 1
  exists to move before.
- A move into an empty group panics.
  - In a debug build, the `len() - 1` underflows.
  - In a release build, the position wraps and the `nth(..).expect` fails.
  - Both are modelled as `Panicked(EmptyDestination)`.
- `toplevel::list` applies `?` to the optional result of `get_workspace`. The model treats a
  failed resolution as an error that stops the listing before anything is printed.

## Stated intent versus code

The program states its intent for reordering once: the help text of the move command
(src/args.rs:57) says the workspace moves to the n-th position within its group. The
requests that `move_to` sends do not always achieve that. The model follows the code, and
the Findings section records where the two part:

- Position 1 always uses the member at index 1 as its reference, so the request for B of
  [A, B, C] is "move B before B" (`WorkspaceScenarios.FrontMoveRelativeToItself`).
- A forward move within the group uses the member just before the target position, so the
  request for A of [A, B, C] to position 2 is "move A after A"
  (`WorkspaceScenarios.ForwardMoveRelativeToItself`). Whether this falls short depends on
  the compositor. If it places the workspace immediately after the reference among the
  remaining members (`Reorder.Apply`), A ends one place early. If it takes the reference's
  index before removing the workspace, A lands where the help text asks.

## Model

| member | source | states |
|---|---|---|
| Outputs.DisplayNameIgnoresMakeModel | src/output.rs:6-8 | an advertised name is the display name, whatever the make and model |
| Outputs.DisplayNameFallbackSplits | src/output.rs:9-11 | without a name the display name is make, `+`, model, for any make; when the make contains no `+`, both parts can be read back from it |
| Outputs.DisplayNameFallbackAmbiguous | src/output.rs:9-11 | when the make may contain `+`, two different unnamed outputs can share one display name |
| Outputs.DisplayNameExample | src/output.rs:6-12 | make "Dell", model "U2412" and no name display as "Dell+U2412"; a name "DP-1" wins |
| Outputs.Find | src/output.rs:35-46 | no result exactly when no output with information has that display name; otherwise the first such output in output order, with its information |
| Outputs.FindNeedsInfo | src/output.rs:39-45 | an output without information is never found |
| Outputs.PrintDisplays | src/output.rs:14-33 | the line is `Display: `, then the entries separated by `, ` (or `none` for no outputs), then a newline |
| Store.Select | src/toplevel.rs:31-35 | a toplevel is selected exactly when it is in the input and the filter keeps it, and nothing is added |
| Store.SelectAppend | src/toplevel.rs:31-35 | selection keeps store order: selecting from a concatenation concatenates the selections |
| Store.SelectEverything | src/toplevel.rs:37 | the unfiltered selection is every toplevel, in order |
| Store.SelectIdempotent | src/workspace.rs:300-308 | selecting again with the same filter changes nothing |
| Workspaces.GroupForDisplay | src/workspace.rs:113-122 | no group exactly when no group spans an output of that name; otherwise the first group, in store order, that does |
| Workspaces.FirstMemberNamed | src/workspace.rs:124-142 | the first member with information carrying the name; none exactly when no member carries it |
| Workspaces.CountNamedOne | src/workspace.rs:146-162 | a name carried by exactly one workspace is carried by the first one found and by no other |
| Workspaces.CountNamedZero | src/workspace.rs:151-154 | a name with count zero is carried by no workspace |
| Workspaces.GetWorkspace | src/workspace.rs:108-179 | a resolved workspace carries the requested name |
| Workspaces.GetWorkspaceWithDisplay | src/workspace.rs:112-144 | with a display: an unknown display is an error; a name missing from that display's group is an error; otherwise the group, the member index and that member's information |
| Workspaces.GetWorkspaceWithoutDisplay | src/workspace.rs:145-178 | without a display: no carrier, or two or more, is an error; a sole carrier that no group lists is an error; otherwise the first group listing it, with the index of that group |
| Workspaces.IsWorkspaceTilingCases | src/workspace.rs:283-288 | stated against the raw reported value: tiling exactly when the enabled value was reported, so absent, disabled and unrecognised values read as not tiling |
| Workspaces.IsWorkspaceTilingKnownOnly | src/workspace.rs:283-288 | only the recognised tiling state matters: workspaces whose reported values are recognised alike read alike, and an unrecognised value never reads as tiling |
| Workspaces.GetGroupsForWorkspace | src/workspace.rs:290-298 | a group is returned exactly when it is in the store and lists the workspace |
| Store.GroupsContainingAppend | src/workspace.rs:290-298 | selecting the groups that list a workspace distributes over concatenation, so the groups come out in store order |
| Workspaces.WorkspaceToplevels | src/workspace.rs:300-308 | a toplevel is returned exactly when it is in the store and is on the workspace |
| Workspaces.NormalizePosition | src/workspace.rs:218-233 | position 0 stays 0, 1 to len become 0 to len-1, anything larger is clamped to the last index; the result is always an index of the group |
| Workspaces.NormalizePositionRoundTrip | src/workspace.rs:218-233 | a normalised position, written back 1-based, normalises to itself |
| Workspaces.MoveTo | src/workspace.rs:187-281 | no manager, or a workspace that does not resolve, sends nothing and says why; a sent log is exactly one move of the workspace's COSMIC handle, on the fixed axis, and one commit to the manager; once a destination exists, the move panics as empty exactly when that destination has no members |
| Workspaces.MoveToNoOp | src/workspace.rs:235-241 | nothing is sent exactly when the normalised position equals the resolved index and the destination is the resolved group |
| Workspaces.MoveToReference | src/workspace.rs:243-280 | when it is not a no-op, position 0 moves before the member at index 1 (a panic when the group has one member) and any other position moves after the member before it; a workspace without a COSMIC handle sends nothing |
| Workspaces.MoveToUnknownTarget | src/workspace.rs:202-212 | a target display that no group shows sends nothing and reports that display |
| Workspaces.MoveWithinGroupReferenceInRange | src/workspace.rs:243-251 | a move within the workspace's own group never panics when the resolved index is a member index |
| Workspaces.MoveWithDisplayWithinGroupNeverPanics | src/workspace.rs:112-144 | a workspace resolved through a display can always be moved within its group without a panic |
| WorkspaceScenarios.MoveToEndOfThree | src/workspace.rs:243-280 | in [A, B, C], moving A to position 3 sends exactly "move A after B", then the commit |
| WorkspaceScenarios.MoveToFrontOfFour | src/workspace.rs:243-280 | in [A, B, C, D], moving D to position 1 sends exactly "move D before B", then the commit |
| WorkspaceScenarios.MoveFourthToFront | src/workspace.rs:243-280 | any workspace resolved as the last of the members [1, 2, 3, 4] and moved to position 1 is sent "before" member 2, the one at index 1 |
| WorkspaceScenarios.ResolveLastOfFour | src/workspace.rs:112-144 | D on its display resolves to index 3 of its group |
| WorkspaceScenarios.MoveToCurrentPosition | src/workspace.rs:235-241 | moving a workspace to its own position sends nothing |
| WorkspaceScenarios.ResolveWithoutDisplayGivesGroupIndex | src/workspace.rs:164-177 | without a display, C (the only member of the second group) resolves to index 1, the index of its group, not its member index 0 |
| WorkspaceScenarios.MoveWithoutDisplayPanics | src/workspace.rs:235-251 | because of that index, moving C to position 1 without a display is not seen as a no-op and panics on the missing member at index 1 |
| WorkspaceScenarios.MoveWithDisplayIsNoOp | src/workspace.rs:235-241 | the same move, with C addressed through its display, sends nothing |
| WorkspaceScenarios.CrossDisplayIntoSingletonPanics | src/workspace.rs:243-251 | moving to position 1 of a one-member group on another display panics |
| WorkspaceScenarios.MoveIntoEmptyGroupPanics | src/workspace.rs:225-226 | moving into an empty group on another display panics |
| WorkspaceScenarios.FrontMoveLandsSecond | src/workspace.rs:243-244 | the request sent for position 1 leaves D second, not first |
| WorkspaceScenarios.ForwardMoveLandsShort | src/workspace.rs:245-246 | the request sent to move A of [A, B, C] to position 3 leaves A second, not third |
| WorkspaceScenarios.FrontMoveRelativeToItself | src/workspace.rs:243-244 | moving B of [A, B, C] to position 1 asks to move B before the member at index 1, which is B itself |
| WorkspaceScenarios.ForwardMoveRelativeToItself | src/workspace.rs:245-246 | moving A of [A, B, C] to position 2 asks to move A after the member at index 0, which is A itself |
| Reorder.ApplyPlaces | src/workspace.rs:265-278 | a move places the workspace at the reference's index among the other members, or one past it, and keeps every other member |
| Reorder.IntendedMovePlaces | src/workspace.rs:243-251 | the intended request puts the workspace exactly at the requested index |
| Reorder.MoveToIntended | src/workspace.rs:187-281 | with the corrected reference choice, a sent log is still one move of the workspace and one commit |
| Reorder.MoveToIntendedPlaces | src/workspace.rs:218-280 | the corrected translation never panics on a non-empty destination, and a sent move puts the workspace at the normalised position |
| Text.DecimalRoundTrip | src/print/human.rs:108-110 | a list number printed in decimal reads back as that number |
| Text.DecimalInjective | src/print/human.rs:108-110 | different list numbers print differently |
| Human.NewPrinter | src/print/human.rs:15-23 | a new printer has no indent and owes nothing |
| Human.SaveDrop | src/print/human.rs:25-32 | a drop keeps the indent, clears the debt and writes at most one character |
| Human.SaveDropOnce | src/print/human.rs:25-32 | a drop writes a newline exactly when one is owed, and a second drop writes nothing |
| Human.Field | src/print/human.rs:35-39 | a field is one line starting with the indent and ending with a newline; the value reads back as the text between `indent name: ` and the newline, so different values give different lines |
| Human.ListSaveDrop | src/print/human.rs:90-98 | a list drop keeps the counter, indent and layout and writes at most one character |
| Human.ListSaveDropOnce | src/print/human.rs:90-98 | a list drop writes a newline exactly when one is owed, and a second drop writes nothing |
| Human.Item | src/print/human.rs:100-112 | every item advances the counter by one; on a numbered list the value reads back as the text between `indent N: ` (N the new counter) and the newline; inline it reads back after the `, ` that precedes every item but the first |
| Human.NestedStructIndent | src/print/human.rs:41-48 | a struct in a list keeps the list's indent, a struct in a struct goes one level deeper, and each owes one newline |
| Print.NumberedLinesSnoc | src/print/human.rs:100-112 | one more item adds exactly one line, numbered one past the items before it |
| Print.EmitItems | src/print/mod.rs:55-57 | emitting items one by one writes the closed-form list body and counts every item |
| Print.EmitInline | src/print/mod.rs:55-57 | on a fresh inline list, emitting the items one by one writes them separated by `, ` and counts every item |
| Print.EmitNumbered | src/print/mod.rs:55-57 | on a fresh numbered list, emitting the items one by one writes one line per item numbered from 1 and counts every item |
| Print.SubList | src/print/mod.rs:27-29 | a default sub-list is numbered, starts empty and is one level deeper |
| Print.Optional | src/print/mod.rs:31-37 | nothing is written exactly when the value is absent; otherwise the field |
| Print.PresentMembers | src/print/mod.rs:31-37 | the fields written by `optional` are exactly those given a value, each with that value |
| Print.PrintStruct | src/print/human.rs:25-48 | a whole struct is its name line, then one line one level deeper for each field that has a value, in order, then one final newline; the later drop writes nothing more, and a struct with no values is its name line and an empty line |
| Print.OptionalFieldExtends | src/print/mod.rs:31-37 | one `optional` call in a struct adds exactly the line of that field when it has a value, and nothing otherwise |
| Print.InlineList | src/print/mod.rs:39-41 | an inline list is `name: `, the items separated by `, `, and a newline |
| Print.List | src/print/mod.rs:43-45 | a default list is `name:`, one numbered line per item from 1, and an empty line; with no items, just the header and the empty line |
| Print.ListWith | src/print/mod.rs:47-62 | a whole list is its header, its items and one final newline; the later drop writes nothing more |
| Print.FieldDebug | src/print/mod.rs:64-66 | the value that reads back from a Debug field is the Debug rendering of the value |
| Print.ListSubList | src/print/mod.rs:75-77 | a nested default list is refused exactly on an inline list |
| Print.EmitOptionals | src/print/mod.rs:78-84 | emitting optional items on a fresh list writes exactly the text of a list of the present values, numbered without gaps, and counts only those |
| Print.OptionalItemExtends | src/print/mod.rs:78-84 | one `optional` call on a list adds exactly what one more present value adds to the list's text and counter, and nothing for an absent value |
| Print.ListList | src/print/mod.rs:86-96 | refused exactly on an inline list; otherwise a numbered header, the nested items numbered from 1 one level deeper, and a newline, and the outer list advances by one |
| Print.ItemDebug | src/print/mod.rs:98-100 | a Debug item advances the counter by one, and the value that reads back from the written text is the Debug rendering |
| Toplevels.FilterMap | src/toplevel.rs:48-53 | at most one value per element, and no values exactly when every element is rejected |
| Toplevels.ExactlyOneFilterMap | src/toplevel.rs:48-63 | filtering and then taking exactly one succeeds exactly when a single element is accepted, and yields that element's value |
| Toplevels.WorkspaceFieldExactlyOne | src/toplevel.rs:48-55 | the workspace line is printed exactly when one of the toplevel's workspaces has information, and it shows that workspace's name |
| Toplevels.OutputFieldExactlyOne | src/toplevel.rs:56-63 | the output line is printed exactly when one of the toplevel's outputs has information, and it shows that output's display name |
| Toplevels.ListedToplevels | src/toplevel.rs:18-38 | a listing never shows more toplevels than the store holds |
| Toplevels.ListedByWorkspace | src/toplevel.rs:19-25 | with a workspace name, a failed resolution fails the listing; otherwise exactly the toplevels on the resolved workspace, in store order |
| Toplevels.DisplayOnlyNarrowsLookup | src/toplevel.rs:19-25 | with a workspace name, the display only picks the workspace and never filters toplevels by output |
| Toplevels.ListedByDisplay | src/toplevel.rs:27-35 | with only a display, an unknown display fails with "unknown display: " and the name; otherwise the listing is the store's toplevels filtered to that output, in store order |
| Toplevels.ListedEverything | src/toplevel.rs:37 | without filters every toplevel is listed, in store order |
| Toplevels.PrintEntry | src/toplevel.rs:42-63 | one entry is a numbered struct with title, app id, identifier and state, then the workspace and output lines when they are unique, then its newline |
| Toplevels.PrintEntries | src/toplevel.rs:41-64 | the entries of all listed toplevels, numbered from 1 in order |
| Toplevels.List | src/toplevel.rs:12-67 | the listing fails exactly when selecting its toplevels fails, with that error; otherwise the `Toplevels:` list of their entries |
| Cosmic.Initial | src/cosmic.rs:88-100 | the initial state has neither global bound |
| Cosmic.Recognise | src/cosmic.rs:119-137 | exactly the toplevel-info and workspace-manager interface names are recognised, each as its own interface |
| Cosmic.RegistryDispatch | src/cosmic.rs:102-159 | registry events never touch the collected entities, and every bind asks for version 1 |
| Cosmic.Dispatch | src/cosmic.rs:161-206 | events of the other objects change nothing and send nothing |
| Cosmic.GlobalBinds | src/cosmic.rs:119-134 | a recognised global is bound under its registry name with one bind request at version 1; the other global is untouched |
| Cosmic.GlobalOtherIgnored | src/cosmic.rs:135-137 | a global of any other interface changes nothing and binds nothing |
| Cosmic.VersionIgnored | src/cosmic.rs:114-118 | the advertised version never changes the outcome |
| Cosmic.GlobalRemoveClears | src/cosmic.rs:139-152 | a removal clears each bound global exactly when its registry name matches, and sends nothing |
| Cosmic.DispatchAll | src/cosmic.rs:102-206 | a run of events never changes the collected entities |
| Cosmic.DispatchAllBindsVersionOne | src/cosmic.rs:36-47 | every bind sent during a run of events asks for version 1 |
| Cosmic.SlotAfter | src/cosmic.rs:114-152 | after a run of events a global is bound under a name exactly when the last event binding it used that name and no later removal named it, or it was bound so before and nothing since rebound or removed it |
| Cosmic.StateTryFrom | src/cosmic.rs:226-237 | a wire value decodes exactly when it is at most 3 |
| Cosmic.StateRoundTrip | src/cosmic.rs:217-237 | decoding inverts the discriminants in both directions |
| App.CheckDoneReadsOnlyItsFlag | src/main.rs:51-55 | each command depends only on its own flag (toplevels, workspaces, output count), and none is done at the start |
| App.NextDelay | src/main.rs:63 | the next delay is double the current one while that stays within 200 ms, and exactly 200 ms otherwise; it never exceeds the cap, never exceeds double, and never decreases below the cap |
| App.Converge | src/main.rs:57-66 | the loop stops exactly when some state satisfies the predicate, at the first one, with the counter one above the round-trips made, and with the delay and sleeps of the closed forms |
| App.DelayIsStep | src/main.rs:58-64 | the delay and every sleep are 20, 40, 80, 160 or 200 ms |
| App.DelayMonotone | src/main.rs:58-64 | the delay never decreases and never exceeds the cap |
| App.RoundEffect | src/main.rs:60-64 | a round with events neither sleeps nor changes the delay; an idle round sleeps once, for the current delay |
| App.DelayAfterIdleRounds | src/main.rs:58-64 | after k idle rounds the delay is 20 ms doubled k times, capped at 200 ms |
| App.SleepsCountIdleRounds | src/main.rs:60-62 | the loop sleeps once per idle round |
| App.OutputDisplayNameAgrees | src/main.rs:77-83 | the driver's own output naming agrees with `output::display_name`, for every output |

## Left out

- The Wayland connection, event queue and round-trips are not modelled. The server is a
  parameter: a sequence of events for the binder, and a sequence of rounds for the loop.
- Logging (the `log` crate's macros) and the sleep itself are not modelled. A sleep is recorded as
  its duration.
- Command-line parsing (src/args.rs), the xtask helper and the JSON printer
  (src/print/json.rs) are outside the core and are not part of this model.
- The plain `println!` listings are not modelled. These are `workspace_groups`, `outputs`
  and `toplevels` in src/main.rs, `output::list`, and `list_groups` and `list` in
  src/workspace.rs. They print counts, capabilities, and the positions, modes and sizes of
  outputs that the model keeps opaque. The driver's `workspaces` command prints only "not
  implemented".
- The toolkit's own bookkeeping is not modelled. This covers output state, workspace
  state, and the toplevel-info handler that fills the mirror. It lives outside the
  repository, so the `Store` is taken as given.
- Protocol proxy objects are not modelled. A bound global is its registry name. The child
  objects created for toplevel handles (`event_created_child`) are not modelled.
- Debug rendering is a string parameter, as for the toplevel state and `FieldDebug`.
  Display rendering of items is done before they reach the printer.
- Writer errors are not modelled: every write is taken to succeed.
- Human.Item: the item counter is unbounded. The source's `u32` counter would overflow
  after 2^32 - 1 items in one list.
- App.Converge: the loop counter is unbounded. The source's `u64` cannot overflow in
  practice.
- App.Converge: the source waits forever when the state never arrives. The model is given
  finitely many rounds and reports `Stalled` when they run out.
- Workspaces.GetWorkspace: its own contract states only that the name matches. The full
  case analysis is in `GetWorkspaceWithDisplay` and `GetWorkspaceWithoutDisplay`.
- Toplevels.ListedToplevels: its own contract bounds only the length. The three cases are
  in `ListedByWorkspace`, `ListedByDisplay` and `ListedEverything`.
- Cosmic.Dispatch: the three no-op dispatchers are modelled as one case. They neither
  read nor change the state.
- Workspace information is looked up by handle as the first mirrored workspace with that
  handle. The toolkit's lookup is not part of this model.
- The toggling and activation commands for toplevels are not in the modelled files. Nor is
  toplevel lookup by identifier prefix.

## Findings

| source | as written | input that shows it | evidently intended | confidence | as-written member | corrected member |
|---|---|---|---|---|---|---|
| src/workspace.rs:243-244 | position 0 (target 1) issues "move before" the member at index 1 | group [A, B, C] with B on its display, target 1: the request is "move B before B", which cannot bring B to the front; and [A, B, C, D] with D, target 1: "move D before B", which leaves [A, D, B, C] when the compositor places D immediately before B | "move before" the member at index 0, so the workspace becomes first | high for the B case, medium for the D case; not executed | WorkspaceScenarios.FrontMoveRelativeToItself, WorkspaceScenarios.FrontMoveLandsSecond | Reorder.MoveToIntended, Reorder.MoveToIntendedPlaces |
| src/workspace.rs:245-246 | any other position issues "move after" the member at index pos - 1, even when the workspace itself sits before pos in the same group | group [A, B, C] with A on its display, target 2: the request is "move A after A"; target 3: "move A after B", which leaves [B, A, C] | for a forward move within the group, "move after" the member at index pos | medium for both inputs; not executed; holds under the immediate-placement reading of `Reorder.Apply`, and a compositor that takes the reference's index before removing the workspace would place A as asked | WorkspaceScenarios.ForwardMoveRelativeToItself, WorkspaceScenarios.ForwardMoveLandsShort | Reorder.MoveToIntended, Reorder.MoveToIntendedPlaces |

Both rows are about the library function `move_to`. The driver in src/main.rs never calls it,
so neither affects what the shipped commands do.

=== FILE: cosmic.dfy ===
/** The registry binder of the COSMIC client state: which advertised globals it binds (the
    toplevel-info global and the workspace-manager global, each remembered with the registry
    name it was advertised under), how a global's removal unbinds it, the event handlers that
    ignore their events, and the decoding of a toplevel state from its `u32` wire value. */
module Cosmic {
  import opened Wrappers
  import opened Store

  /** An unsigned 32-bit wire value: registry names, versions and enum values. */
  newtype u32 = x: int | 0 <= x < 0x1_0000_0000

  /** The interface names the binder recognises. */
  const TOPLEVEL_INFO_INTERFACE: string := "zcosmic_toplevel_info_v1"
  const WORKSPACE_MANAGER_INTERFACE: string := "zcosmic_workspace_manager_v2"

  /** The protocol version every bind asks for, whatever version the server advertises. */
  const BIND_VERSION: u32 := 1

  /** The two globals the binder keeps. */
  datatype Interface = ToplevelInfoGlobal | WorkspaceManagerGlobal

  function InterfaceName(i: Interface): string
  {
    match i
    case ToplevelInfoGlobal => TOPLEVEL_INFO_INTERFACE
    case WorkspaceManagerGlobal => WORKSPACE_MANAGER_INTERFACE
  }

  /** A bound global: the registry name it was advertised under. (The protocol object it
      yields is not modelled beyond that name.) */
  datatype BoundGlobal = BoundGlobal(name: u32)

  /** A toplevel state as the client decodes it. */
  datatype State = Maximized | Minimized | Activated | Fullscreen

  /** A toplevel as the client state records it. */
  datatype Toplevel = Toplevel(
    handle: Handle,
    title: Option<string>,
    appId: Option<string>,
    outputs: seq<Handle>,
    workspaces: seq<Handle>,
    state: seq<State>)

  /** The client state: the two optional bound globals and the collected entities, which
      no handler shown here ever changes. */
  datatype AppData = AppData(
    toplevelInfo: Option<BoundGlobal>,
    workspaceManager: Option<BoundGlobal>,
    outputs: seq<(Handle, string)>,
    toplevels: seq<Toplevel>,
    workspaces: seq<seq<(Handle, Option<string>)>>)

  /** The default state: nothing bound, nothing collected. */
  function Initial(): (st: AppData)
    ensures Slot(st, ToplevelInfoGlobal).None? && Slot(st, WorkspaceManagerGlobal).None?
  {
    AppData(None, None, [], [], [])
  }

  /** The bound global kept for interface `i`. */
  function Slot(st: AppData, i: Interface): Option<BoundGlobal>
  {
    match i
    case ToplevelInfoGlobal => st.toplevelInfo
    case WorkspaceManagerGlobal => st.workspaceManager
  }

  /** The state with the global kept for `i` replaced. */
  function SetSlot(st: AppData, i: Interface, b: Option<BoundGlobal>): (r: AppData)
    ensures Slot(r, i) == b
    ensures forall j :: j != i ==> Slot(r, j) == Slot(st, j)
    ensures SameEntities(r, st)
  {
    match i
    case ToplevelInfoGlobal => st.(toplevelInfo := b)
    case WorkspaceManagerGlobal => st.(workspaceManager := b)
  }

  /** Both states hold the same collected entities. */
  predicate SameEntities(a: AppData, b: AppData)
  {
    a.outputs == b.outputs && a.toplevels == b.toplevels && a.workspaces == b.workspaces
  }

  /** Registry events: a global advertised, a global withdrawn, or an event kind the
      handler does not know. */
  datatype RegistryEvent =
    | Global(name: u32, interface: string, version: u32)
    | GlobalRemove(name: u32)
    | UnknownRegistryEvent

  /** Events delivered to the client state: registry events, and events of the toplevel-info,
      toplevel-handle and workspace-manager objects, whose payloads are opaque codes. */
  datatype Event =
    | Registry(event: RegistryEvent)
    | ToplevelInfoEvent(code: nat)
    | ToplevelHandleEvent(code: nat)
    | WorkspaceManagerEvent(code: nat)

  /** A bind request sent to the registry. */
  datatype BindRequest = BindRequest(name: u32, interface: Interface, version: u32)

  /** The state after an event, and the bind requests sent while handling it. */
  datatype Dispatched = Dispatched(state: AppData, binds: seq<BindRequest>)

  /** The interface a name denotes, if the binder recognises it. */
  function Recognise(interface: string): (r: Option<Interface>)
    ensures r.Some? <==> interface == TOPLEVEL_INFO_INTERFACE || interface == WORKSPACE_MANAGER_INTERFACE
    ensures r.Some? ==> InterfaceName(r.value) == interface
  {
    if interface == TOPLEVEL_INFO_INTERFACE then Some(ToplevelInfoGlobal)
    else if interface == WORKSPACE_MANAGER_INTERFACE then Some(WorkspaceManagerGlobal)
    else None
  }

  /** Clears the global kept for `i` when it was bound under registry name `name`. */
  function Unbind(st: AppData, i: Interface, name: u32): AppData
  {
    match Slot(st, i)
    case Some(b) => if b.name == name then SetSlot(st, i, None) else st
    case None => st
  }

  /** The registry handler. A recognised global is bound at version 1 under its registry
      name, replacing whatever was bound for that interface; other globals are ignored. A
      removal clears each bound global whose registry name it carries. */
  function RegistryDispatch(st: AppData, ev: RegistryEvent): (r: Dispatched)
    ensures SameEntities(r.state, st)
    ensures forall b :: b in r.binds ==> b.version == BIND_VERSION
  {
    match ev
    case Global(name, interface, _) =>
      (match Recognise(interface)
       case Some(i) => Dispatched(SetSlot(st, i, Some(BoundGlobal(name))), [BindRequest(name, i, BIND_VERSION)])
       case None => Dispatched(st, []))
    case GlobalRemove(name) =>
      Dispatched(Unbind(Unbind(st, ToplevelInfoGlobal, name), WorkspaceManagerGlobal, name), [])
    case UnknownRegistryEvent => Dispatched(st, [])
  }

  /** The handlers of the toplevel-info, toplevel-handle and workspace-manager objects only
      log their events; only registry events change anything. */
  function Dispatch(st: AppData, ev: Event): (r: Dispatched)
    ensures !ev.Registry? ==> r == Dispatched(st, [])
    ensures SameEntities(r.state, st)
  {
    match ev
    case Registry(e) => RegistryDispatch(st, e)
    case _ => Dispatched(st, [])
  }

  /** A `Global` for a recognised interface binds exactly that interface, under the
      advertised name, and asks for exactly one bind at version 1; the other slot is
      untouched. */
  lemma GlobalBinds(st: AppData, name: u32, i: Interface, version: u32)
    ensures var r := RegistryDispatch(st, Global(name, InterfaceName(i), version));
      && Slot(r.state, i) == Some(BoundGlobal(name))
      && (forall j :: j != i ==> Slot(r.state, j) == Slot(st, j))
      && r.binds == [BindRequest(name, i, BIND_VERSION)]
  {
  }

  /** A `Global` for any other interface changes nothing and binds nothing. */
  lemma GlobalOtherIgnored(st: AppData, name: u32, interface: string, version: u32)
    requires interface != TOPLEVEL_INFO_INTERFACE && interface != WORKSPACE_MANAGER_INTERFACE
    ensures RegistryDispatch(st, Global(name, interface, version)) == Dispatched(st, [])
  {
  }

  /** The advertised version never matters. */
  lemma VersionIgnored(st: AppData, name: u32, interface: string, v1: u32, v2: u32)
    ensures RegistryDispatch(st, Global(name, interface, v1)) == RegistryDispatch(st, Global(name, interface, v2))
  {
  }

  /** A removal clears each bound global independently, exactly when its registry name is
      the removed one, and binds nothing. */
  lemma GlobalRemoveClears(st: AppData, name: u32)
    ensures var r := RegistryDispatch(st, GlobalRemove(name));
      && r.binds == []
      && forall i :: Slot(r.state, i) ==
           if Slot(st, i).Some? && Slot(st, i).value.name == name then None else Slot(st, i)
  {
    var r := RegistryDispatch(st, GlobalRemove(name));
    forall i ensures Slot(r.state, i) ==
        if Slot(st, i).Some? && Slot(st, i).value.name == name then None else Slot(st, i) {
      match i
      case ToplevelInfoGlobal =>
      case WorkspaceManagerGlobal =>
    }
  }

  /** The state after a sequence of events, with every bind request sent on the way. */
  function DispatchAll(st: AppData, evs: seq<Event>): (r: Dispatched)
    ensures SameEntities(r.state, st)
    decreases |evs|
  {
    if |evs| == 0 then Dispatched(st, [])
    else
      var before := DispatchAll(st, evs[..|evs| - 1]);
      var last := Dispatch(before.state, evs[|evs| - 1]);
      Dispatched(last.state, before.binds + last.binds)
  }

  /** Event `ev` binds the global kept for `i`. */
  predicate BindsSlot(ev: Event, i: Interface)
  {
    ev.Registry? && ev.event.Global? && ev.event.interface == InterfaceName(i)
  }

  /** After index `k`, no event rebinds the global kept for `i` and none removes name `n`. */
  predicate Survives(evs: seq<Event>, k: int, i: Interface, n: u32)
  {
    forall j :: 0 <= j < |evs| && k < j ==> !BindsSlot(evs[j], i) && evs[j] != Registry(GlobalRemove(n))
  }

  /** Every bind request sent over a run of events asks for version 1. */
  lemma {:induction false} DispatchAllBindsVersionOne(st: AppData, evs: seq<Event>)
    ensures forall b :: b in DispatchAll(st, evs).binds ==> b.version == BIND_VERSION
    decreases |evs|
  {
    if |evs| > 0 {
      DispatchAllBindsVersionOne(st, evs[..|evs| - 1]);
    }
  }

  /** What is bound for `i` after a run of events: the global advertised by the last event
      that bound that interface, unless its name was removed afterwards; or, when no event
      bound it, the global bound at the start, unless its name was removed. */
  lemma {:induction false} SlotAfter(st: AppData, evs: seq<Event>, i: Interface, b: BoundGlobal)
    ensures Slot(DispatchAll(st, evs).state, i) == Some(b) <==>
      || (exists k :: 0 <= k < |evs| && BindsSlot(evs[k], i) && evs[k].event.name == b.name && Survives(evs, k, i, b.name))
      || (Slot(st, i) == Some(b) && Survives(evs, -1, i, b.name))
    decreases |evs|
  {
    if |evs| > 0 {
      var init := evs[..|evs| - 1];
      var e := evs[|evs| - 1];
      SlotAfter(st, init, i, b);
      var before := DispatchAll(st, init).state;
      var after := DispatchAll(st, evs).state;
      assert after == Dispatch(before, e).state;
      forall k | -1 <= k < |init| ensures Survives(evs, k, i, b.name) <==> Survives(init, k, i, b.name) && !BindsSlot(e, i) && e != Registry(GlobalRemove(b.name)) {
        if Survives(init, k, i, b.name) && !BindsSlot(e, i) && e != Registry(GlobalRemove(b.name)) {
          forall j | k < j < |evs| ensures !BindsSlot(evs[j], i) && evs[j] != Registry(GlobalRemove(b.name)) {
            if j < |init| {
              assert evs[j] == init[j];
            }
          }
        }
        if Survives(evs, k, i, b.name) {
          forall j | k < j < |init| ensures !BindsSlot(init[j], i) && init[j] != Registry(GlobalRemove(b.name)) {
            assert init[j] == evs[j];
          }
          assert evs[|evs| - 1] == e;
        }
      }
      if BindsSlot(e, i) {
        assert Survives(evs, |evs| - 1, i, e.event.name);
        SlotAfterBind(before, e, i);
      } else if e == Registry(GlobalRemove(b.name)) {
        GlobalRemoveClears(before, b.name);
      } else {
        SlotAfterOther(before, e, i, b);
      }
    }
  }

  /** An event binding the global for `i` leaves that global bound under its name. */
  lemma SlotAfterBind(st: AppData, e: Event, i: Interface)
    requires BindsSlot(e, i)
    ensures Slot(Dispatch(st, e).state, i) == Some(BoundGlobal(e.event.name))
  {
    assert Recognise(e.event.interface) == Some(i);
  }

  /** An event that neither binds the global for `i` nor removes name `b.name` keeps
      `Slot(_, i) == Some(b)` exactly as it was. */
  lemma SlotAfterOther(st: AppData, e: Event, i: Interface, b: BoundGlobal)
    requires !BindsSlot(e, i) && e != Registry(GlobalRemove(b.name))
    ensures Slot(Dispatch(st, e).state, i) == Some(b) <==> Slot(st, i) == Some(b)
  {
    if e.Registry? {
      match e.event
      case Global(name, interface, _) =>
        if Recognise(interface).Some? {
          assert Recognise(interface).value != i;
        }
      case GlobalRemove(name) =>
        GlobalRemoveClears(st, name);
      case UnknownRegistryEvent =>
    }
  }

  /** The wire value of each state, as the enum's `repr(u32)` discriminants fix it. */
  function Discriminant(s: State): u32
  {
    match s
    case Maximized => 0
    case Minimized => 1
    case Activated => 2
    case Fullscreen => 3
  }

  /** Decodes a wire value: 0 to 3 are the four states, every other value is rejected. */
  function StateTryFrom(v: u32): (r: Result<State, ()>)
    ensures r.Ok? <==> v <= 3
  {
    match v
    case 0 => Ok(Maximized)
    case 1 => Ok(Minimized)
    case 2 => Ok(Activated)
    case 3 => Ok(Fullscreen)
    case _ => Err(())
  }

  /** Decoding inverts the discriminants, in both directions. */
  lemma StateRoundTrip(s: State, v: u32)
    ensures StateTryFrom(Discriminant(s)) == Ok(s)
    ensures StateTryFrom(v).Ok? ==> Discriminant(StateTryFrom(v).value) == v
  {
  }
}

=== FILE: human.dfy ===
/** The human-readable printer: a struct printer and a list printer whose whole state is an
    indent, a pending-newline flag and, for lists, an item counter and the inline option.
    The writer is the text each call appends; writes are taken to succeed. A printer value
    is immutable here: an operation returns the printer state after the call together with
    the text it wrote. */
module Human {
  import opened Wrappers
  import opened Text

  /** The indentation added for each nesting level. */
  const INDENT: string := "  "

  /** How a list is laid out: one numbered line per item, or all items on the header line. */
  datatype ListOptions = ListOptions(inline: bool)

  /** The default layout: one numbered line per item. */
  const DefaultListOptions: ListOptions := ListOptions(false)

  /** A struct printer: whether a newline is still owed when it is dropped, and its indent. */
  datatype Printer = Printer(endWithNl: bool, indent: string)

  /** A list printer: items emitted so far (also the last number used), the pending newline,
      the indent of its item lines and its layout. */
  datatype ListPrinter = ListPrinter(counter: nat, endWithNl: bool, indent: string, options: ListOptions)

  /** The state of a printer after a call, and the text the call wrote. */
  datatype Step<S> = Step(next: S, out: string)

  /** The state of a parent after opening a child printer, the child, and the text written. */
  datatype Opened<P, C> = Opened(parent: P, child: C, out: string)

  /** The printer a command starts from: no indent, nothing owed. */
  function NewPrinter(): (p: Printer)
    ensures SaveDrop(p).out == ""
    ensures p.indent == ""
  {
    Printer(false, "")
  }

  /** Writes the owed newline, if any, and clears the debt. */
  function SaveDrop(p: Printer): (r: Step<Printer>)
    ensures r.next.indent == p.indent && !r.next.endWithNl
    ensures |r.out| <= 1
  {
    if p.endWithNl then Step(p.(endWithNl := false), "\n") else Step(p, "")
  }

  /** One line: the name and the rendered value after the indent. The value reads back
      from the line as the text between `indent name: ` and the final newline, so
      different values always give different lines. */
  function Field(p: Printer, name: string, value: string): (r: string)
    ensures |r| == |p.indent| + |name| + 2 + |value| + 1
    ensures r[..|p.indent|] == p.indent && r[|r| - 1] == '\n'
    ensures Between(r, p.indent + name + ": ", "\n") == Some(value)
  {
    BetweenFramed(p.indent + name + ": ", value, "\n");
    p.indent + name + ": " + value + "\n"
  }

  /** Opens a nested struct: a header line with the name; the child is indented one level
      deeper and owes a newline. The parent is unchanged. */
  function SubStruct(p: Printer, name: string): (r: Opened<Printer, Printer>)
    ensures r.parent == p
    ensures r.child == Printer(true, INDENT + p.indent)
    ensures r.out == p.indent + name + "\n"
  {
    Opened(p, Printer(true, INDENT + p.indent), p.indent + name + "\n")
  }

  /** Opens a nested list: an inline list writes `name: ` and stays on the line, any other
      writes `name:` and a newline. The list starts at counter 0, one level deeper, owing a
      newline. The parent is unchanged. */
  function SubListWith(p: Printer, name: string, options: ListOptions): (r: Opened<Printer, ListPrinter>)
    ensures r.parent == p
    ensures r.child == ListPrinter(0, true, INDENT + p.indent, options)
    ensures options.inline ==> r.out == p.indent + name + ": "
    ensures !options.inline ==> r.out == p.indent + name + ":\n"
  {
    var header := if options.inline then p.indent + name + ": " else p.indent + name + ":\n";
    Opened(p, ListPrinter(0, true, INDENT + p.indent, options), header)
  }

  /** Writes the owed newline of a list, if any, and clears the debt. */
  function ListSaveDrop(l: ListPrinter): (r: Step<ListPrinter>)
    ensures r.next == l.(endWithNl := false)
    ensures |r.out| <= 1
  {
    if l.endWithNl then Step(l.(endWithNl := false), "\n") else Step(l, "")
  }

  /** The line of a non-inline list item numbered `n`. */
  function ItemLine(indent: string, n: nat, value: string): string
  {
    indent + Decimal(n) + ": " + value + "\n"
  }

  /** Emits one item and advances the counter. Inline, items after the first are preceded
      by `, `; otherwise each item is its own line numbered by the new counter. */
  function Item(l: ListPrinter, value: string): (r: Step<ListPrinter>)
    ensures r.next == l.(counter := l.counter + 1)
    ensures l.options.inline && l.counter == 0 ==> r.out == value
    ensures l.options.inline && l.counter > 0 ==> r.out == ", " + value
    ensures !l.options.inline ==> r.out == ItemLine(l.indent, l.counter + 1, value)
    ensures !l.options.inline ==>
      Between(r.out, l.indent + Decimal(r.next.counter) + ": ", "\n") == Some(value)
    ensures l.options.inline ==>
      Between(r.out, if l.counter > 0 then ", " else "", "") == Some(value)
  {
    BetweenFramed(l.indent + Decimal(l.counter + 1) + ": ", value, "\n");
    var sep := if l.counter > 0 then ", " else "";
    BetweenFramed(sep, value, "");
    assert sep + value + "" == sep + value;
    var n := l.counter + 1;
    var text := if l.options.inline then (if n > 1 then ", " else "") + value
                else ItemLine(l.indent, n, value);
    Step(l.(counter := n), text)
  }

  /** Opens a struct as the next item of a list: refused on an inline list (nothing is
      written and the list is unchanged); otherwise a numbered header line, and the struct
      keeps the list's indent and owes a newline. */
  function ListSubStruct(l: ListPrinter): (r: Result<Opened<ListPrinter, Printer>, string>)
    ensures r.Err? <==> l.options.inline
    ensures r.Err? ==> r.error == "Inline list does not support inner struct"
    ensures r.Ok? ==>
      && r.value.parent == l.(counter := l.counter + 1)
      && r.value.child == Printer(true, l.indent)
      && r.value.out == l.indent + Decimal(l.counter + 1) + ":\n"
  {
    if l.options.inline then Err("Inline list does not support inner struct")
    else
      var n := l.counter + 1;
      Ok(Opened(l.(counter := n), Printer(true, l.indent), l.indent + Decimal(n) + ":\n"))
  }

  /** Opens a list as the next item of a list: refused on an inline list (nothing is
      written and the list is unchanged); otherwise a numbered header line unless the child
      is inline, and the child starts at counter 0, one level deeper, owing a newline. */
  function ListSubListWith(l: ListPrinter, options: ListOptions): (r: Result<Opened<ListPrinter, ListPrinter>, string>)
    ensures r.Err? <==> l.options.inline
    ensures r.Err? ==> r.error == "Inline list does not support inner list"
    ensures r.Ok? ==>
      && r.value.parent == l.(counter := l.counter + 1)
      && r.value.child == ListPrinter(0, true, INDENT + l.indent, options)
      && r.value.out == (if options.inline then "" else l.indent + Decimal(l.counter + 1) + ":\n")
  {
    if l.options.inline then Err("Inline list does not support inner list")
    else
      var n := l.counter + 1;
      var header := if options.inline then "" else l.indent + Decimal(n) + ":\n";
      Ok(Opened(l.(counter := n), ListPrinter(0, true, INDENT + l.indent, options), header))
  }

  /** A drop writes at most one newline, exactly when one is owed, and a second drop
      writes nothing and changes nothing. */
  lemma SaveDropOnce(p: Printer)
    ensures SaveDrop(p).out == "\n" <==> p.endWithNl
    ensures SaveDrop(p).out == "" <==> !p.endWithNl
    ensures SaveDrop(SaveDrop(p).next) == Step(SaveDrop(p).next, "")
  {
  }

  /** The same for list printers; the counter, indent and layout survive the drop. */
  lemma ListSaveDropOnce(l: ListPrinter)
    ensures ListSaveDrop(l).out == "\n" <==> l.endWithNl
    ensures ListSaveDrop(l).out == "" <==> !l.endWithNl
    ensures ListSaveDrop(ListSaveDrop(l).next) == Step(ListSaveDrop(l).next, "")
  {
  }

  /** A struct opened inside a list is indented like the list's items, while one opened
      inside a struct is indented one level deeper than its parent; each owes exactly one
      newline. */
  lemma NestedStructIndent(p: Printer, name: string, l: ListPrinter)
    requires !l.options.inline
    ensures SubStruct(p, name).child.indent == INDENT + p.indent
    ensures ListSubStruct(l).value.child.indent == l.indent
    ensures SaveDrop(SubStruct(p, name).child).out == "\n"
    ensures SaveDrop(ListSubStruct(l).value.child).out == "\n"
  {
  }
}

=== FILE: main.dfy ===
/** The command driver: the completion predicate each command waits for, and the loop that
    repeats server round-trips until it holds, sleeping with a doubling delay (20 ms, capped
    at 200 ms) after every round-trip that delivered no event. The server is replaced by a
    sequence of rounds: how many events each round-trip dispatched and the completion flags
    it left behind. */
module App {
  import opened Wrappers
  import opened Store
  import opened Outputs

  /** The listing commands; each waits for its own part of the state. */
  datatype Command = Toplevels | Outputs | WorkspaceGroups | Workspaces

  /** The completion flags the driver's state carries. */
  datatype Progress = Progress(toplevlDone: bool, workspaceDone: bool, outputCount: nat)

  /** The state before the first round-trip: nothing done, no output seen. */
  const START: Progress := Progress(false, false, 0)

  /** Whether the state a command needs has arrived. */
  function CheckDone(c: Command, p: Progress): bool
  {
    match c
    case Toplevels => p.toplevlDone
    case Outputs => p.outputCount > 0
    case WorkspaceGroups => p.workspaceDone
    case Workspaces => p.workspaceDone
  }

  /** Each command looks at exactly one part of the state: changing the other parts never
      changes its verdict. */
  lemma CheckDoneReadsOnlyItsFlag(c: Command, p: Progress, q: Progress)
    ensures c == Toplevels && p.toplevlDone == q.toplevlDone ==> CheckDone(c, p) == CheckDone(c, q)
    ensures c == Outputs && (p.outputCount > 0 <==> q.outputCount > 0) ==> CheckDone(c, p) == CheckDone(c, q)
    ensures (c == WorkspaceGroups || c == Workspaces) && p.workspaceDone == q.workspaceDone ==>
      CheckDone(c, p) == CheckDone(c, q)
    ensures !CheckDone(c, START)
  {
  }

  /** The first delay, in milliseconds. */
  const INITIAL_DELAY: nat := 20

  /** The largest delay, in milliseconds. */
  const MAX_DELAY: nat := 200

  /** The delay after a sleep: doubled, but never above the cap. */
  function NextDelay(d: nat): (r: nat)
    ensures r <= MAX_DELAY
    ensures d <= MAX_DELAY ==> d <= r
    ensures 2 * d <= MAX_DELAY ==> r == 2 * d
    ensures 2 * d >= MAX_DELAY ==> r == MAX_DELAY
    ensures r <= 2 * d
  {
    if 2 * d < MAX_DELAY then 2 * d else MAX_DELAY
  }

  /** One round-trip as the server answered it: how many events it dispatched and the
      completion flags after them. */
  datatype Round = Round(events: nat, after: Progress)

  /** The state after the first `k` rounds. */
  function StateAt(rounds: seq<Round>, k: nat): Progress
    requires k <= |rounds|
  {
    if k == 0 then START else rounds[k - 1].after
  }

  /** The delay after the first `k` rounds: each round that dispatched nothing doubles it
      up to the cap, the others leave it alone. */
  function DelayAfter(rounds: seq<Round>, k: nat): nat
    requires k <= |rounds|
  {
    if k == 0 then INITIAL_DELAY
    else if rounds[k - 1].events == 0 then NextDelay(DelayAfter(rounds, k - 1))
    else DelayAfter(rounds, k - 1)
  }

  /** The sleeps taken during the first `k` rounds, in order: one per idle round, of the
      delay current at that round. */
  function SleepsAfter(rounds: seq<Round>, k: nat): seq<nat>
    requires k <= |rounds|
  {
    if k == 0 then []
    else if rounds[k - 1].events == 0 then SleepsAfter(rounds, k - 1) + [DelayAfter(rounds, k - 1)]
    else SleepsAfter(rounds, k - 1)
  }

  /** How the loop ends: the predicate held after `rounds` round-trips, with the counter,
      the delay and the sleeps at that point; or the given rounds ran out first (the
      program would go on waiting). */
  datatype Outcome =
    | Converged(rounds: nat, count: nat, delay: nat, sleeps: seq<nat>)
    | Stalled(delay: nat, sleeps: seq<nat>)

  /** The waiting loop. It checks the command's predicate before every round-trip and
      stops at the first state where it holds; the counter starts at 1 and counts every
      round-trip made. */
  method Converge(c: Command, rounds: seq<Round>) returns (r: Outcome)
    ensures r.Converged? <==> exists k :: 0 <= k <= |rounds| && CheckDone(c, StateAt(rounds, k))
    ensures r.Converged? ==>
      && r.rounds <= |rounds|
      && CheckDone(c, StateAt(rounds, r.rounds))
      && (forall k :: 0 <= k < r.rounds ==> !CheckDone(c, StateAt(rounds, k)))
      && r.count == 1 + r.rounds
      && r.delay == DelayAfter(rounds, r.rounds)
      && r.sleeps == SleepsAfter(rounds, r.rounds)
    ensures r.Stalled? ==>
      && r.delay == DelayAfter(rounds, |rounds|)
      && r.sleeps == SleepsAfter(rounds, |rounds|)
  {
    var progress := START;
    var count := 1;
    var delay := INITIAL_DELAY;
    var sleeps: seq<nat> := [];
    var i := 0;
    while !CheckDone(c, progress) && i < |rounds|
      invariant 0 <= i <= |rounds|
      invariant progress == StateAt(rounds, i)
      invariant count == 1 + i
      invariant delay == DelayAfter(rounds, i)
      invariant sleeps == SleepsAfter(rounds, i)
      invariant forall k :: 0 <= k < i ==> !CheckDone(c, StateAt(rounds, k))
    {
      if rounds[i].events == 0 {
        sleeps := sleeps + [delay];
        delay := NextDelay(delay);
      }
      progress := rounds[i].after;
      count := count + 1;
      i := i + 1;
    }
    if CheckDone(c, progress) {
      r := Converged(i, count, delay, sleeps);
    } else {
      r := Stalled(delay, sleeps);
    }
  }

  /** The delays the loop can ever use. */
  predicate IsDelayStep(d: nat)
  {
    d == 20 || d == 40 || d == 80 || d == 160 || d == 200
  }

  /** The delay is always one of 20, 40, 80, 160 and 200 ms, and so is every sleep. */
  lemma {:induction false} DelayIsStep(rounds: seq<Round>, k: nat)
    requires k <= |rounds|
    ensures IsDelayStep(DelayAfter(rounds, k))
    ensures forall i :: 0 <= i < |SleepsAfter(rounds, k)| ==> IsDelayStep(SleepsAfter(rounds, k)[i])
    decreases k
  {
    if k > 0 {
      DelayIsStep(rounds, k - 1);
    }
  }

  /** The delay never decreases and never exceeds the cap. */
  lemma {:induction false} DelayMonotone(rounds: seq<Round>, j: nat, k: nat)
    requires j <= k <= |rounds|
    ensures DelayAfter(rounds, j) <= DelayAfter(rounds, k) <= MAX_DELAY
    decreases k
  {
    DelayIsStep(rounds, k);
    if j < k {
      DelayMonotone(rounds, j, k - 1);
      DelayIsStep(rounds, k - 1);
    }
  }

  /** A round that dispatched events neither sleeps nor changes the delay; an idle round
      sleeps once, for the current delay. */
  lemma RoundEffect(rounds: seq<Round>, k: nat)
    requires k < |rounds|
    ensures rounds[k].events > 0 ==>
      DelayAfter(rounds, k + 1) == DelayAfter(rounds, k) && SleepsAfter(rounds, k + 1) == SleepsAfter(rounds, k)
    ensures rounds[k].events == 0 ==>
      SleepsAfter(rounds, k + 1) == SleepsAfter(rounds, k) + [DelayAfter(rounds, k)]
  {
  }

  /** 2 to the power `n`. */
  function Pow2(n: nat): (r: nat)
    ensures r >= 1
  {
    if n == 0 then 1 else 2 * Pow2(n - 1)
  }

  /** After `k` idle rounds the delay is 20 ms doubled `k` times, capped at 200 ms. */
  lemma {:induction false} DelayAfterIdleRounds(rounds: seq<Round>, k: nat)
    requires k <= |rounds|
    requires forall i :: 0 <= i < k ==> rounds[i].events == 0
    ensures DelayAfter(rounds, k) == if INITIAL_DELAY * Pow2(k) < MAX_DELAY then INITIAL_DELAY * Pow2(k) else MAX_DELAY
    decreases k
  {
    if k > 0 {
      DelayAfterIdleRounds(rounds, k - 1);
      if INITIAL_DELAY * Pow2(k - 1) >= MAX_DELAY {
        assert INITIAL_DELAY * Pow2(k) >= MAX_DELAY;
      }
    }
  }

  /** The number of sleeps is the number of idle rounds. */
  function IdleRounds(rounds: seq<Round>, k: nat): nat
    requires k <= |rounds|
  {
    if k == 0 then 0 else IdleRounds(rounds, k - 1) + (if rounds[k - 1].events == 0 then 1 else 0)
  }

  lemma {:induction false} SleepsCountIdleRounds(rounds: seq<Round>, k: nat)
    requires k <= |rounds|
    ensures |SleepsAfter(rounds, k)| == IdleRounds(rounds, k)
    decreases k
  {
    if k > 0 {
      SleepsCountIdleRounds(rounds, k - 1);
    }
  }

  /** The driver's own output naming: the advertised name, else `make+model`. */
  function OutputDisplayName(o: OutputInfo): string
  {
    if o.name.Some? then o.name.value else o.make + "+" + o.model
  }

  /** It agrees with the display name used by the commands, for every output. */
  lemma OutputDisplayNameAgrees(o: OutputInfo)
    ensures OutputDisplayName(o) == DisplayName(o)
  {
  }
}

=== FILE: output.dfy ===
/** Display naming and output lookup: how an output is called on the command line and in
    listings, the first-match search by that name, and the comma-joined display line. */
module Outputs {
  import opened Wrappers
  import opened Text
  import opened Store

  /** The name an output is addressed by: its advertised name, else `make+model`. */
  function DisplayName(o: OutputInfo): string
  {
    if o.name.Some? then o.name.value else o.make + "+" + o.model
  }

  /** An advertised name wins: make and model are then irrelevant. */
  lemma DisplayNameIgnoresMakeModel(o: OutputInfo, make: string, model: string)
    requires o.name.Some?
    ensures DisplayName(o.(make := make, model := model)) == DisplayName(o) == o.name.value
  {
  }

  /** Without an advertised name, the display name is the make, `+` and the model, for any
      make; whenever the make contains no `+`, the first `+` is the one that separates
      the two, so both can be read back. */
  lemma DisplayNameFallbackSplits(o: OutputInfo)
    requires o.name.None?
    ensures var r := DisplayName(o);
      && |r| == |o.make| + 1 + |o.model|
      && r[..|o.make|] == o.make
      && r[|o.make|] == '+'
      && r[|o.make| + 1..] == o.model
      && ('+' !in o.make ==> forall i :: 0 <= i < |o.make| ==> r[i] != '+')
  {
  }

  /** When a make contains `+`, the fallback name no longer tells make and model apart:
      two different unnamed outputs can share a display name, and a lookup by that name
      finds only the first of them. */
  lemma DisplayNameFallbackAmbiguous()
    ensures OutputInfo(None, "A+B", "C") != OutputInfo(None, "A", "B+C")
    ensures DisplayName(OutputInfo(None, "A+B", "C")) == DisplayName(OutputInfo(None, "A", "B+C")) == "A+B+C"
  {
  }

  /** An output with neither name nor other data: make "Dell", model "U2412". */
  lemma DisplayNameExample()
    ensures DisplayName(OutputInfo(None, "Dell", "U2412")) == "Dell+U2412"
    ensures DisplayName(OutputInfo(Some("DP-1"), "Dell", "U2412")) == "DP-1"
  {
  }

  /** Output `h` has information and is called `display`. */
  predicate Shows(s: Store, h: Handle, display: string)
  {
    h in s.outputInfo && DisplayName(s.outputInfo[h]) == display
  }

  /** Index of the first handle in `hs` that shows `display`. */
  function FirstShowing(s: Store, hs: seq<Handle>, display: string): (r: Option<nat>)
    ensures r.Some? ==> r.value < |hs| && Shows(s, hs[r.value], display)
    ensures r.Some? ==> forall j :: 0 <= j < r.value ==> !Shows(s, hs[j], display)
    ensures r.None? <==> forall j :: 0 <= j < |hs| ==> !Shows(s, hs[j], display)
  {
    if |hs| == 0 then None
    else if Shows(s, hs[0], display) then Some(0)
    else match FirstShowing(s, hs[1..], display)
      case None => None
      case Some(i) => Some(i + 1)
  }

  /** The first output, in store order, that has information and whose display name is
      `display`, with that information. */
  function Find(s: Store, display: string): (r: Option<(Handle, OutputInfo)>)
    ensures r.None? <==> forall k :: 0 <= k < |s.outputs| ==> !Shows(s, s.outputs[k], display)
    ensures r.Some? ==>
      && OutputInfoOf(s, r.value.0) == Some(r.value.1)
      && DisplayName(r.value.1) == display
      && exists k :: 0 <= k < |s.outputs| && s.outputs[k] == r.value.0
           && forall j :: 0 <= j < k ==> !Shows(s, s.outputs[j], display)
  {
    match FirstShowing(s, s.outputs, display)
    case None => None
    case Some(k) => Some((s.outputs[k], s.outputInfo[s.outputs[k]]))
  }

  /** An output without information is never found, whatever its handle. */
  lemma FindNeedsInfo(s: Store, display: string)
    requires Find(s, display).Some?
    ensures Find(s, display).value.0 in s.outputInfo
  {
  }

  /** How one output is shown in a display line: its display name, else "unknown". */
  function DisplayEntry(s: Store, h: Handle): string
  {
    match OutputInfoOf(s, h)
    case Some(o) => DisplayName(o)
    case None => "unknown"
  }

  /** The entries of a display line, one per output, in the given order. */
  function DisplayEntries(s: Store, hs: seq<Handle>): (r: seq<string>)
    ensures |r| == |hs|
    ensures forall i :: 0 <= i < |hs| ==> r[i] == DisplayEntry(s, hs[i])
  {
    seq(|hs|, i requires 0 <= i < |hs| => DisplayEntry(s, hs[i]))
  }

  /** The line that `print_displays` writes for the given outputs. Every output takes a
      slot, an output without information as "unknown"; no outputs at all prints "none". */
  method PrintDisplays(s: Store, hs: seq<Handle>) returns (out: string)
    ensures out == "Display: " + (if |hs| == 0 then "none" else Join(DisplayEntries(s, hs), ", ")) + "\n"
  {
    ghost var entries := DisplayEntries(s, hs);
    var line := "";
    var first := true;
    var i := 0;
    while i < |hs|
      invariant 0 <= i <= |hs|
      invariant first <==> i == 0
      invariant line == Join(entries[..i], ", ")
    {
      var entry := DisplayEntry(s, hs[i]);
      JoinPrefix(entries, i, ", ");
      if first {
        first := false;
        line := line + entry;
      } else {
        line := line + ", " + entry;
      }
      i := i + 1;
    }
    assert entries[..i] == entries;
    if first {
      line := line + "none";
    }
    out := "Display: " + line + "\n";
  }
}

=== FILE: print.dfy ===
/** The printing operations every printer gets for free: optional fields and items, default
    and inline lists, whole lists emitted from a sequence of items, and Debug-rendered
    fields. Items and values are taken already rendered to text by their Display
    implementation. The closed forms `ItemsText` and `ListText` describe the text of a
    whole list independently of the printer states that produce it. */
module Print {
  import opened Wrappers
  import opened Text
  import opened Human

  /** The numbered lines of `items`, counting from `first`. */
  function Lines(indent: string, items: seq<string>, first: nat): (r: seq<string>)
    ensures |r| == |items|
  {
    seq(|items|, i requires 0 <= i < |items| => ItemLine(indent, first + i, items[i]))
  }

  /** Items as a list body: numbered lines `indent N: item` counting from `first`. */
  function NumberedLines(indent: string, items: seq<string>, first: nat): string
  {
    Concat(Lines(indent, items, first))
  }

  /** Appending an item appends its line, numbered after all the others. */
  lemma NumberedLinesSnoc(indent: string, items: seq<string>, first: nat, x: string)
    ensures NumberedLines(indent, items + [x], first)
         == NumberedLines(indent, items, first) + ItemLine(indent, first + |items|, x)
  {
    var all := Lines(indent, items + [x], first);
    assert all[..|items|] == Lines(indent, items, first);
    assert all[|items|] == ItemLine(indent, first + |items|, x);
  }

  /** The items of a fresh list with the given layout: numbered lines, or the items joined
      by `, ` with no leading separator. */
  function ItemsText(indent: string, items: seq<string>, options: ListOptions): string
  {
    if options.inline then Join(items, ", ") else NumberedLines(indent, items, 1)
  }

  /** A whole list opened on a printer with indent `indent`: the header, the items one level
      deeper, and the newline owed at the end. */
  function ListText(indent: string, name: string, items: seq<string>, options: ListOptions): string
  {
    (if options.inline then indent + name + ": " else indent + name + ":\n")
    + ItemsText(INDENT + indent, items, options) + "\n"
  }

  /** Emits every item of `items`, in order, on a fresh list. */
  method EmitItems(l: ListPrinter, items: seq<string>) returns (r: Step<ListPrinter>)
    requires l.counter == 0
    ensures r.next == l.(counter := |items|)
    ensures r.out == ItemsText(l.indent, items, l.options)
  {
    if l.options.inline {
      r := EmitInline(l, items);
    } else {
      r := EmitNumbered(l, items);
    }
  }

  /** Emits every item on a fresh inline list: the items separated by `, `. */
  method EmitInline(l: ListPrinter, items: seq<string>) returns (r: Step<ListPrinter>)
    requires l.counter == 0 && l.options.inline
    ensures r.next == l.(counter := |items|)
    ensures r.out == Join(items, ", ")
  {
    var cur := l;
    var out := "";
    var i := 0;
    while i < |items|
      invariant 0 <= i <= |items|
      invariant cur == l.(counter := i)
      invariant out == Join(items[..i], ", ")
    {
      assert items[..i + 1] == items[..i] + [items[i]];
      JoinSnoc(items[..i], ", ", items[i]);
      var step := Item(cur, items[i]);
      if i > 0 {
        assert out + step.out == out + ", " + items[i];
      }
      cur := step.next;
      out := out + step.out;
      i := i + 1;
    }
    assert items[..i] == items;
    r := Step(cur, out);
  }

  /** Emits every item on a fresh numbered list: one line per item, numbered from 1. */
  method EmitNumbered(l: ListPrinter, items: seq<string>) returns (r: Step<ListPrinter>)
    requires l.counter == 0 && !l.options.inline
    ensures r.next == l.(counter := |items|)
    ensures r.out == NumberedLines(l.indent, items, 1)
  {
    var cur := l;
    var out := "";
    var i := 0;
    while i < |items|
      invariant 0 <= i <= |items|
      invariant cur == l.(counter := i)
      invariant out == NumberedLines(l.indent, items[..i], 1)
    {
      assert items[..i + 1] == items[..i] + [items[i]];
      NumberedLinesSnoc(l.indent, items[..i], 1, items[i]);
      var step := Item(cur, items[i]);
      assert step.out == ItemLine(l.indent, i + 1, items[i]);
      cur := step.next;
      out := out + step.out;
      i := i + 1;
    }
    assert items[..i] == items;
    r := Step(cur, out);
  }

  /** `field` when a value is present, nothing otherwise. */
  function Optional(p: Printer, name: string, value: Option<string>): (r: string)
    ensures r == "" <==> value.None?
    ensures value.Some? ==> r == Field(p, name, value.value)
  {
    match value
    case Some(v) => Field(p, name, v)
    case None => ""
  }

  /** A list with the default layout. */
  function SubList(p: Printer, name: string): (r: Opened<Printer, ListPrinter>)
    ensures !r.child.options.inline
    ensures r.child.counter == 0 && r.child.indent == INDENT + p.indent
  {
    SubListWith(p, name, DefaultListOptions)
  }

  /** Emits a whole list: opens it with the given layout, emits every item in order, then
      drops it once; the drop that follows when the list goes out of scope writes nothing
      more. */
  method ListWith(p: Printer, name: string, items: seq<string>, options: ListOptions) returns (out: string)
    ensures out == ListText(p.indent, name, items, options)
  {
    var sub := SubListWith(p, name, options);
    var emitted := EmitItems(sub.child, items);
    var dropped := ListSaveDrop(emitted.next);
    out := sub.out + emitted.out + dropped.out;
    ListSaveDropOnce(emitted.next);
    out := out + ListSaveDrop(dropped.next).out;
  }

  /** An inline list: all items after `name: ` on one line, separated by `, `. */
  method InlineList(p: Printer, name: string, items: seq<string>) returns (out: string)
    ensures out == p.indent + name + ": " + Join(items, ", ") + "\n"
  {
    out := ListWith(p, name, items, ListOptions(true));
  }

  /** A default list: `name:`, then one numbered line per item from 1, then an empty line. */
  method List(p: Printer, name: string, items: seq<string>) returns (out: string)
    ensures out == p.indent + name + ":\n" + NumberedLines(INDENT + p.indent, items, 1) + "\n"
    ensures |items| == 0 ==> out == p.indent + name + ":\n\n"
  {
    out := ListWith(p, name, items, DefaultListOptions);
  }

  /** The fields of a struct that have a value, in order, paired with that value. */
  function Present(fields: seq<(string, Option<string>)>): (r: seq<(string, string)>)
    ensures |r| <= |fields|
  {
    if |fields| == 0 then []
    else
      var last := fields[|fields| - 1];
      Present(fields[..|fields| - 1]) + (if last.1.Some? then [(last.0, last.1.value)] else [])
  }

  /** A field that has a value stays, paired with it; one without is left out. */
  lemma {:induction false} PresentMembers(fields: seq<(string, Option<string>)>)
    ensures forall n, v :: (n, v) in Present(fields) <==> (n, Some(v)) in fields
  {
    if |fields| > 0 {
      var init := fields[..|fields| - 1];
      PresentMembers(init);
      assert fields == init + [fields[|fields| - 1]];
    }
  }

  /** `name: value` lines at `indent`, one per pair, in order. */
  function FieldLines(indent: string, pairs: seq<(string, string)>): string
  {
    Concat(seq(|pairs|, i requires 0 <= i < |pairs| => indent + pairs[i].0 + ": " + pairs[i].1 + "\n"))
  }

  /** One more pair adds its line at the end. */
  lemma FieldLinesSnoc(indent: string, pairs: seq<(string, string)>, n: string, v: string)
    ensures FieldLines(indent, pairs + [(n, v)]) == FieldLines(indent, pairs) + indent + n + ": " + v + "\n"
  {
    var all := seq(|pairs| + 1, i requires 0 <= i < |pairs| + 1 => indent + (pairs + [(n, v)])[i].0 + ": " + (pairs + [(n, v)])[i].1 + "\n");
    assert all[..|pairs|] == seq(|pairs|, i requires 0 <= i < |pairs| => indent + pairs[i].0 + ": " + pairs[i].1 + "\n");
    assert all[|pairs|] == indent + n + ": " + v + "\n";
  }

  /** A whole struct opened on a printer with indent `indent`: the name on its own line, the
      line of every field that has a value one level deeper, and the newline owed at the end. */
  function StructText(indent: string, name: string, fields: seq<(string, Option<string>)>): string
  {
    indent + name + "\n" + FieldLines(INDENT + indent, Present(fields)) + "\n"
  }

  /** Emits a whole struct: opens it, writes every field with `optional` in order, then
      drops it once; the drop that follows when it goes out of scope writes nothing more.
      Fields without a value leave no trace, so a struct with none is its name line and
      an empty line. */
  method PrintStruct(p: Printer, name: string, fields: seq<(string, Option<string>)>) returns (out: string)
    ensures out == StructText(p.indent, name, fields)
    ensures (forall i :: 0 <= i < |fields| ==> fields[i].1.None?) ==> out == p.indent + name + "\n\n"
  {
    var sub := SubStruct(p, name);
    var c := sub.child;
    var body := "";
    var i := 0;
    while i < |fields|
      invariant 0 <= i <= |fields|
      invariant body == FieldLines(c.indent, Present(fields[..i]))
    {
      var line := Optional(c, fields[i].0, fields[i].1);
      OptionalFieldExtends(c, fields, i);
      body := body + line;
      i := i + 1;
    }
    assert fields[..i] == fields;
    var dropped := SaveDrop(c);
    out := sub.out + body + dropped.out;
    SaveDropOnce(c);
    out := out + SaveDrop(dropped.next).out;
    if forall i :: 0 <= i < |fields| ==> fields[i].1.None? {
      PresentMembers(fields);
      assert FieldLines(c.indent, Present(fields)) == "";
    }
  }

  /** Writing field `i` with `optional` extends the lines of the fields before it by
      exactly the line of that field, if it has a value. */
  lemma OptionalFieldExtends(c: Printer, fields: seq<(string, Option<string>)>, i: nat)
    requires i < |fields|
    ensures FieldLines(c.indent, Present(fields[..i + 1]))
         == FieldLines(c.indent, Present(fields[..i])) + Optional(c, fields[i].0, fields[i].1)
  {
    assert fields[..i + 1][..i] == fields[..i];
    var before := Present(fields[..i]);
    if fields[i].1.Some? {
      assert Present(fields[..i + 1]) == before + [(fields[i].0, fields[i].1.value)];
      FieldLinesSnoc(c.indent, before, fields[i].0, fields[i].1.value);
    } else {
      assert Present(fields[..i + 1]) == before;
    }
  }

  /** The values present among `values`, in order. */
  function Somes(values: seq<Option<string>>): (r: seq<string>)
    ensures |r| <= |values|
  {
    if |values| == 0 then []
    else
      var last := values[|values| - 1];
      Somes(values[..|values| - 1]) + (if last.Some? then [last.value] else [])
  }

  /** Emits `optional` for every value on a fresh list: exactly the present values are
      emitted, in order and numbered without gaps, as if the absent ones were not there. */
  method EmitOptionals(l: ListPrinter, values: seq<Option<string>>) returns (r: Step<ListPrinter>)
    requires l.counter == 0
    ensures r.next == l.(counter := |Somes(values)|)
    ensures r.out == ItemsText(l.indent, Somes(values), l.options)
  {
    var cur := l;
    var out := "";
    var i := 0;
    while i < |values|
      invariant 0 <= i <= |values|
      invariant cur == l.(counter := |Somes(values[..i])|)
      invariant out == ItemsText(l.indent, Somes(values[..i]), l.options)
    {
      var step := ListOptional(cur, values[i]);
      SomesSnoc(values, i);
      OptionalItemExtends(cur, Somes(values[..i]), values[i]);
      cur := step.next;
      out := out + step.out;
      i := i + 1;
    }
    assert values[..i] == values;
    r := Step(cur, out);
  }

  /** The present values among the first `i + 1` are those among the first `i`, followed
      by value `i` if it is present. */
  lemma SomesSnoc(values: seq<Option<string>>, i: nat)
    requires i < |values|
    ensures Somes(values[..i + 1]) == Somes(values[..i]) + (if values[i].Some? then [values[i].value] else [])
  {
    assert values[..i + 1][..i] == values[..i];
  }

  /** `optional` on a fresh list after the items `before` extends the list's text by exactly
      what one more present value adds, and by nothing for an absent one. */
  lemma OptionalItemExtends(l: ListPrinter, before: seq<string>, value: Option<string>)
    requires l.counter == |before|
    ensures var after := before + (if value.Some? then [value.value] else []);
      && ListOptional(l, value).next == l.(counter := |after|)
      && ItemsText(l.indent, after, l.options) == ItemsText(l.indent, before, l.options) + ListOptional(l, value).out
  {
    var step := ListOptional(l, value);
    if value.Some? {
      var v := value.value;
      if l.options.inline {
        JoinSnoc(before, ", ", v);
        if |before| > 0 {
          assert Join(before, ", ") + step.out == Join(before, ", ") + ", " + v;
        }
      } else {
        NumberedLinesSnoc(l.indent, before, 1, v);
        assert step.out == ItemLine(l.indent, |before| + 1, v);
      }
    } else {
      assert before + [] == before;
    }
  }

  /** `field` applied to the Debug rendering of a value; the rendering is a parameter. */
  function FieldDebug<T>(p: Printer, name: string, value: T, debug: T -> string): (r: string)
    ensures r == Field(p, name, debug(value))
    ensures Between(r, p.indent + name + ": ", "\n") == Some(debug(value))
  {
    Field(p, name, debug(value))
  }

  /** An item when a value is present; otherwise nothing is written and the counter stays. */
  function ListOptional(l: ListPrinter, value: Option<string>): (r: Step<ListPrinter>)
    ensures value.None? ==> r == Step(l, "")
    ensures value.Some? ==> r == Item(l, value.value)
    ensures r.next.counter == l.counter + (if value.Some? then 1 else 0)
  {
    match value
    case Some(v) => Item(l, v)
    case None => Step(l, "")
  }

  /** A nested list with the default layout: refused on an inline list. */
  function ListSubList(l: ListPrinter): (r: Result<Opened<ListPrinter, ListPrinter>, string>)
    ensures r.Err? <==> l.options.inline
    ensures r.Ok? ==> !r.value.child.options.inline && r.value.child.counter == 0
  {
    ListSubListWith(l, DefaultListOptions)
  }

  /** A whole nested list as the next item of a list: refused on an inline list; otherwise
      the numbered header, one numbered line per item one level deeper, and the nested
      list's newline. The outer list advances by one item. */
  method ListList(l: ListPrinter, items: seq<string>) returns (r: Result<Step<ListPrinter>, string>)
    ensures r.Err? <==> l.options.inline
    ensures r.Err? ==> r.error == "Inline list does not support inner list"
    ensures r.Ok? ==>
      && r.value.next == l.(counter := l.counter + 1)
      && r.value.out == l.indent + Decimal(l.counter + 1) + ":\n"
                        + NumberedLines(INDENT + l.indent, items, 1) + "\n"
  {
    var sub := ListSubList(l);
    if sub.Err? {
      return Err(sub.error);
    }
    var emitted := EmitItems(sub.value.child, items);
    var dropped := ListSaveDrop(emitted.next);
    r := Ok(Step(sub.value.parent, sub.value.out + emitted.out + dropped.out));
  }

  /** An item rendered with Debug; the rendering is a parameter. */
  function ItemDebug<T>(l: ListPrinter, value: T, debug: T -> string): (r: Step<ListPrinter>)
    ensures r == Item(l, debug(value))
    ensures r.next.counter == l.counter + 1
    ensures !l.options.inline ==>
      Between(r.out, l.indent + Decimal(l.counter + 1) + ": ", "\n") == Some(debug(value))
    ensures l.options.inline ==>
      Between(r.out, if l.counter > 0 then ", " else "", "") == Some(debug(value))
  {
    Item(l, debug(value))
  }
}

=== FILE: reorder.dfy ===
/** What the relative move requests do to a group's member order, read as: the compositor
    places the workspace immediately before or after the reference workspace (an assumption
    of this model; the compositor is not part of it), and a translation of absolute
    positions into those requests that puts the workspace exactly at the requested
    position under that reading. */
module Reorder {
  import opened Wrappers
  import opened Store
  import opened Workspaces

  /** No handle occurs twice. */
  predicate Distinct(ms: seq<Handle>)
  {
    forall i, j :: 0 <= i < j < |ms| ==> ms[i] != ms[j]
  }

  /** `ms` without `w`. */
  function Without(ms: seq<Handle>, w: Handle): (r: seq<Handle>)
    ensures forall x :: x in r <==> x in ms && x != w
    ensures |r| <= |ms|
  {
    if |ms| == 0 then []
    else (if ms[0] == w then [] else [ms[0]]) + Without(ms[1..], w)
  }

  /** Position of the first `x` in `ms`. */
  function IndexOf(ms: seq<Handle>, x: Handle): (i: nat)
    requires x in ms
    ensures i < |ms| && ms[i] == x
    ensures forall j :: 0 <= j < i ==> ms[j] != x
  {
    if ms[0] == x then 0 else 1 + IndexOf(ms[1..], x)
  }

  /** The member order after the compositor applies a move of workspace `w` (listed by its
      group handle) relative to `mv.other`: `w` leaves its place and is inserted
      immediately before or after the reference. */
  function Apply(ms: seq<Handle>, w: Handle, mv: Request): (r: seq<Handle>)
    requires mv.MoveBefore? || mv.MoveAfter?
    requires mv.other in ms && mv.other != w
  {
    var rest := Without(ms, w);
    var i := IndexOf(rest, mv.other);
    if mv.MoveBefore? then rest[..i] + [w] + rest[i..] else rest[..i + 1] + [w] + rest[i + 1..]
  }

  /** Where `w` ends up: at the reference's index among the other members, or one past it. */
  lemma ApplyPlaces(ms: seq<Handle>, w: Handle, mv: Request)
    requires mv.MoveBefore? || mv.MoveAfter?
    requires mv.other in ms && mv.other != w
    ensures var rest := Without(ms, w);
      var i := IndexOf(rest, mv.other);
      var r := Apply(ms, w, mv);
      && |r| == |rest| + 1
      && r[if mv.MoveBefore? then i else i + 1] == w
      && IndexOf(r, w) == if mv.MoveBefore? then i else i + 1
  {
    var rest := Without(ms, w);
    var i := IndexOf(rest, mv.other);
    var k := if mv.MoveBefore? then i else i + 1;
    InsertPlaces(rest, k, w);
  }

  /** Inserting a handle that is not yet present at index `k` puts it at index `k`, its
      first and only occurrence. */
  lemma InsertPlaces(rest: seq<Handle>, k: nat, w: Handle)
    requires k <= |rest| && w !in rest
    ensures var r := rest[..k] + [w] + rest[k..];
      && |r| == |rest| + 1
      && r[k] == w
      && IndexOf(r, w) == k
  {
    var r := rest[..k] + [w] + rest[k..];
    assert r[k] == w;
    forall j | 0 <= j < k
      ensures r[j] != w
    {
      assert r[j] == rest[j];
      assert rest[j] in rest;
    }
  }

  /** Removing a handle that is not there changes nothing. */
  lemma {:induction false} WithoutAbsent(ms: seq<Handle>, w: Handle)
    requires w !in ms
    ensures Without(ms, w) == ms
    decreases |ms|
  {
    if |ms| > 0 {
      WithoutAbsent(ms[1..], w);
      assert ms == [ms[0]] + ms[1..];
    }
  }

  /** Removing the member at index `c` of a list without repetitions closes the gap. */
  lemma {:induction false} WithoutAt(ms: seq<Handle>, c: nat)
    requires Distinct(ms) && c < |ms|
    ensures Without(ms, ms[c]) == ms[..c] + ms[c + 1..]
    decreases |ms|
  {
    if c == 0 {
      assert ms[0] !in ms[1..];
      WithoutAbsent(ms[1..], ms[0]);
    } else {
      assert Distinct(ms[1..]) by {
        forall i, j | 0 <= i < j < |ms[1..]| ensures ms[1..][i] != ms[1..][j] {
          assert ms[1..][i] == ms[i + 1] && ms[1..][j] == ms[j + 1];
        }
      }
      assert ms[1..][c - 1] == ms[c];
      WithoutAt(ms[1..], c - 1);
      assert ms[0] != ms[c];
      assert ms[1..][..c - 1] == ms[1..c];
      assert ms[1..][c..] == ms[c + 1..];
      assert ms[..c] == [ms[0]] + ms[1..c];
    }
  }

  /** In a list without repetitions the index of the member at `j` is `j`. */
  lemma IndexOfDistinct(ms: seq<Handle>, j: nat)
    requires Distinct(ms) && j < |ms|
    ensures IndexOf(ms, ms[j]) == j
  {
    var i := IndexOf(ms, ms[j]);
    assert ms[i] == ms[j];
  }

  /** Removing a member from a list without repetitions leaves one without repetitions. */
  lemma DistinctRemoveAt(ms: seq<Handle>, c: nat)
    requires Distinct(ms) && c < |ms|
    ensures Distinct(ms[..c] + ms[c + 1..])
  {
    var rest := ms[..c] + ms[c + 1..];
    forall a, b | 0 <= a < b < |rest| ensures rest[a] != rest[b] {
      var a' := if a < c then a else a + 1;
      var b' := if b < c then b else b + 1;
      assert rest[a] == ms[a'];
      assert rest[b] == ms[b'];
    }
  }

  /** After removing the member at `c`, the members after it move down by one. */
  lemma IndexAfterRemoval(ms: seq<Handle>, c: nat, j: nat)
    requires Distinct(ms) && c < |ms| && j < |ms| && j != c
    ensures ms[j] in Without(ms, ms[c])
    ensures IndexOf(Without(ms, ms[c]), ms[j]) == if j < c then j else j - 1
  {
    WithoutAt(ms, c);
    DistinctRemoveAt(ms, c);
    RemoveAtIndex(ms, c, j);
    IndexOfDistinct(ms[..c] + ms[c + 1..], if j < c then j else j - 1);
  }

  /** After removing the member at `c`, member `j` sits at `j` or, past `c`, at `j - 1`. */
  lemma RemoveAtIndex(ms: seq<Handle>, c: nat, j: nat)
    requires c < |ms| && j < |ms| && j != c
    ensures var k := if j < c then j else j - 1;
      k < |ms| - 1 && (ms[..c] + ms[c + 1..])[k] == ms[j]
  {
  }

  /** The intended translation: which request places a workspace currently at `current`
      (`None` when it comes from another group) at `pos` among `ms`. */
  function IntendedMove(ms: seq<Handle>, current: Option<nat>, pos: nat, ch: Handle): (mv: Request)
    requires pos < |ms|
    requires current.Some? ==> current.value < |ms| && current.value != pos
  {
    if pos == 0 then MoveBefore(ch, ms[0], AXIS)
    else if current.Some? && current.value < pos then MoveAfter(ch, ms[pos], AXIS)
    else MoveAfter(ch, ms[pos - 1], AXIS)
  }

  /** The intended translation puts the workspace exactly at the requested position,
      whether it moves inside its group (forwards or backwards) or arrives from another. */
  lemma IntendedMovePlaces(ms: seq<Handle>, w: Handle, current: Option<nat>, pos: nat, ch: Handle)
    requires Distinct(ms) && pos < |ms|
    requires current.Some? ==> current.value < |ms| && current.value != pos && ms[current.value] == w
    requires current.None? ==> w !in ms
    ensures var mv := IntendedMove(ms, current, pos, ch);
      && mv.other in ms && mv.other != w
      && IndexOf(Apply(ms, w, mv), w) == pos
      && |Apply(ms, w, mv)| == if current.Some? then |ms| else |ms| + 1
  {
    var mv := IntendedMove(ms, current, pos, ch);
    var ref := if pos == 0 then 0 else if current.Some? && current.value < pos then pos else pos - 1;
    assert mv.other == ms[ref];
    match current {
      case Some(c) =>
        assert ref != c;
        assert ms[ref] != w by { if ref < c { assert ms[ref] != ms[c]; } else { assert ms[c] != ms[ref]; } }
        IndexAfterRemoval(ms, c, ref);
        WithoutAt(ms, c);
        ApplyPlaces(ms, w, mv);
      case None =>
        WithoutAbsent(ms, w);
        IndexOfDistinct(ms, ref);
        ApplyPlaces(ms, w, mv);
    }
  }

  /** `move_to` with the intended translation: the steps of `MoveTo`, except that the
      current position is the workspace's own index among the destination's members and
      the reference member is chosen so that the workspace lands at the target position;
      an empty destination offers no reference and sends nothing. */
  function MoveToIntended(s: Store, ident: WorkspaceIdent, target: nat, targetDisplay: Option<string>): (r: MoveOutcome)
    ensures r.Issued? ==> s.manager.Some? && |r.requests| == 2 && r.requests[1] == Commit(s.manager.value)
  {
    if s.manager.None? then Skipped(NoManager)
    else match GetWorkspace(s, ident)
      case Err(e) => Skipped(Unresolved(e))
      case Ok(res) =>
        match Destination(s, res.group, targetDisplay)
        case None => Skipped(UnknownTargetDisplay(targetDisplay.value))
        case Some(dest) =>
          var ms := dest.workspaces;
          var w := res.workspace.handle;
          if |ms| == 0 then Skipped(EmptyTarget)
          else
            var pos := NormalizePosition(target, |ms|);
            var current := if w in ms then Some(IndexOf(ms, w)) else None;
            if current == Some(pos) then Skipped(AlreadyAtPosition)
            else match res.workspace.cosmicHandle
              case None => Skipped(NoCosmicHandle)
              case Some(ch) => Issued([IntendedMove(ms, current, pos, ch), Commit(s.manager.value)])
  }

  /** Whatever the resolution path, a move sent by the intended translation puts the
      workspace at the normalised target position of a destination without repeated
      members, and it never panics. */
  lemma MoveToIntendedPlaces(s: Store, ident: WorkspaceIdent, target: nat, targetDisplay: Option<string>,
                             res: Resolved, dest: WorkspaceGroup)
    requires s.manager.Some?
    requires GetWorkspace(s, ident) == Ok(res)
    requires Destination(s, res.group, targetDisplay) == Some(dest)
    requires Distinct(dest.workspaces)
    ensures !MoveToIntended(s, ident, target, targetDisplay).Panicked?
    ensures var r := MoveToIntended(s, ident, target, targetDisplay);
      r.Issued? ==>
        && |dest.workspaces| >= 1
        && r.requests[0].other in dest.workspaces
        && r.requests[0].other != res.workspace.handle
        && IndexOf(Apply(dest.workspaces, res.workspace.handle, r.requests[0]), res.workspace.handle)
           == NormalizePosition(target, |dest.workspaces|)
  {
    var ms := dest.workspaces;
    var w := res.workspace.handle;
    if |ms| > 0 {
      var pos := NormalizePosition(target, |ms|);
      var current := if w in ms then Some(IndexOf(ms, w)) else None;
      if current != Some(pos) && res.workspace.cosmicHandle.Some? {
        IntendedMovePlaces(ms, w, current, pos, res.workspace.cosmicHandle.value);
      }
    }
  }
}

=== FILE: store.dfy ===
/** The in-memory mirror of compositor state that the commands read: outputs with their
    advertised information, workspace groups, workspaces and toplevels. Protocol objects
    (proxies) are opaque handles. */
module Store {
  import opened Wrappers

  /** Identity of a protocol object (an output, a workspace, a group, a toplevel). */
  type Handle = nat

  /** What an output advertises about itself; positions, sizes and modes are left opaque. */
  datatype OutputInfo = OutputInfo(name: Option<string>, make: string, model: string)

  /** The tiling state a workspace reports, as the protocol enum wrapper sees it:
      one of the two known values, or a number the client does not know. */
  datatype TilingValue = Enabled | Disabled | Unrecognised(raw: nat)

  /** A workspace as mirrored: its extension-protocol handle, its name, the optional
      protocol id, the optional handle of the COSMIC extension object (needed to move
      it) and the optional tiling state. */
  datatype WorkspaceInfo = WorkspaceInfo(
    handle: Handle,
    name: string,
    id: Option<string>,
    cosmicHandle: Option<Handle>,
    tiling: Option<TilingValue>)

  /** A workspace group: its own handle, the outputs it spans and its ordered members. */
  datatype WorkspaceGroup = WorkspaceGroup(handle: Handle, outputs: seq<Handle>, workspaces: seq<Handle>)

  /** A toplevel (window): the text fields the listing prints, the Debug rendering of its
      state set, and the outputs and workspaces it is on. */
  datatype ToplevelInfo = ToplevelInfo(
    handle: Handle,
    title: string,
    appId: string,
    identifier: string,
    stateDebug: string,
    outputs: seq<Handle>,
    workspaces: seq<Handle>)

  /** The whole mirror. `outputs` is the order in which the output state lists outputs;
      an output may lack information (`outputInfo` has no entry for it). `manager` is
      the workspace manager global, absent when it is not bound. */
  datatype Store = Store(
    outputs: seq<Handle>,
    outputInfo: map<Handle, OutputInfo>,
    groups: seq<WorkspaceGroup>,
    workspaces: seq<WorkspaceInfo>,
    toplevels: seq<ToplevelInfo>,
    manager: Option<Handle>)

  /** The information known about output `h`, if any. */
  function OutputInfoOf(s: Store, h: Handle): Option<OutputInfo>
  {
    if h in s.outputInfo then Some(s.outputInfo[h]) else None
  }

  /** The first mirrored workspace whose handle is `h`, if any. */
  function WorkspaceInfoIn(ws: seq<WorkspaceInfo>, h: Handle): (r: Option<WorkspaceInfo>)
    ensures r.Some? ==> r.value in ws && r.value.handle == h
    ensures r.None? <==> forall i :: 0 <= i < |ws| ==> ws[i].handle != h
  {
    if |ws| == 0 then None
    else if ws[0].handle == h then Some(ws[0])
    else WorkspaceInfoIn(ws[1..], h)
  }

  /** The workspace information for handle `h`, as the workspace state looks it up. */
  function WorkspaceInfoOf(s: Store, h: Handle): Option<WorkspaceInfo>
  {
    WorkspaceInfoIn(s.workspaces, h)
  }

  /** Which toplevels a listing keeps. */
  datatype ToplevelFilter = OnWorkspace(workspace: Handle) | OnOutput(output: Handle) | Everything

  predicate Keeps(f: ToplevelFilter, t: ToplevelInfo)
  {
    match f
    case OnWorkspace(w) => w in t.workspaces
    case OnOutput(o) => o in t.outputs
    case Everything => true
  }

  /** The toplevels of `ts` that `f` keeps, in their order in `ts`. */
  function Select(ts: seq<ToplevelInfo>, f: ToplevelFilter): (r: seq<ToplevelInfo>)
    ensures |r| <= |ts|
    ensures forall t :: t in r <==> t in ts && Keeps(f, t)
  {
    if |ts| == 0 then []
    else (if Keeps(f, ts[0]) then [ts[0]] else []) + Select(ts[1..], f)
  }

  /** Selection is taken piecewise: it keeps the store order. */
  lemma {:induction false} SelectAppend(a: seq<ToplevelInfo>, b: seq<ToplevelInfo>, f: ToplevelFilter)
    ensures Select(a + b, f) == Select(a, f) + Select(b, f)
    decreases |a|
  {
    if |a| == 0 {
      assert a + b == b;
    } else {
      assert (a + b)[0] == a[0];
      assert (a + b)[1..] == a[1..] + b;
      SelectAppend(a[1..], b, f);
    }
  }

  /** Without a filter every toplevel is selected, in order. */
  lemma {:induction false} SelectEverything(ts: seq<ToplevelInfo>)
    ensures Select(ts, Everything) == ts
    decreases |ts|
  {
    if |ts| > 0 {
      SelectEverything(ts[1..]);
      assert ts == [ts[0]] + ts[1..];
    }
  }

  /** A selection re-selected with the same filter is unchanged. */
  lemma {:induction false} SelectIdempotent(ts: seq<ToplevelInfo>, f: ToplevelFilter)
    ensures Select(Select(ts, f), f) == Select(ts, f)
    decreases |ts|
  {
    if |ts| > 0 {
      var head := if Keeps(f, ts[0]) then [ts[0]] else [];
      SelectAppend(head, Select(ts[1..], f), f);
      SelectIdempotent(ts[1..], f);
      if Keeps(f, ts[0]) {
        assert Select(head, f) == [ts[0]] + Select(head[1..], f);
      }
    }
  }

  /** The groups among `groups` whose member list contains workspace `h`, in order. */
  function GroupsContaining(groups: seq<WorkspaceGroup>, h: Handle): (r: seq<WorkspaceGroup>)
    ensures |r| <= |groups|
    ensures forall g :: g in r <==> g in groups && h in g.workspaces
  {
    if |groups| == 0 then []
    else (if h in groups[0].workspaces then [groups[0]] else []) + GroupsContaining(groups[1..], h)
  }

  /** Selecting groups distributes over concatenation, so the selection keeps store order. */
  lemma {:induction false} GroupsContainingAppend(a: seq<WorkspaceGroup>, b: seq<WorkspaceGroup>, h: Handle)
    ensures GroupsContaining(a + b, h) == GroupsContaining(a, h) + GroupsContaining(b, h)
    decreases |a|
  {
    if |a| == 0 {
      assert a + b == b;
    } else {
      assert (a + b)[0] == a[0];
      assert (a + b)[1..] == a[1..] + b;
      GroupsContainingAppend(a[1..], b, h);
    }
  }
}

=== FILE: text.dfy ===
/** Text helpers shared by the printers: separator joins, decimal rendering of counters,
    and reading a value back from between a prefix and a suffix. */
module Text {
  import opened Wrappers

  /** `parts` joined with `sep` between neighbours: no leading and no trailing separator.
      Defined from the back, the way the printers append one part at a time. */
  function Join(parts: seq<string>, sep: string): string
  {
    if |parts| == 0 then []
    else if |parts| == 1 then parts[0]
    else Join(parts[..|parts| - 1], sep) + sep + parts[|parts| - 1]
  }

  /** Joining a single part yields that part; appending one part adds exactly one separator. */
  lemma JoinSnoc(parts: seq<string>, sep: string, p: string)
    ensures |parts| == 0 ==> Join(parts + [p], sep) == p
    ensures |parts| > 0 ==> Join(parts + [p], sep) == Join(parts, sep) + sep + p
  {
    assert (parts + [p])[..|parts|] == parts;
  }

  /** The first `i + 1` parts joined: part 0 alone, or the first `i` joined, a separator
      and part `i`. */
  lemma JoinPrefix(parts: seq<string>, i: nat, sep: string)
    requires i < |parts|
    ensures i == 0 ==> Join(parts[..i + 1], sep) == parts[0]
    ensures i > 0 ==> Join(parts[..i + 1], sep) == Join(parts[..i], sep) + sep + parts[i]
  {
    assert parts[..i + 1][..i] == parts[..i];
  }

  /** Joining from the front gives the same text: the first part, then a separator, then the rest. */
  lemma {:induction false} JoinCons(p: string, rest: seq<string>, sep: string)
    requires |rest| > 0
    ensures Join([p] + rest, sep) == p + sep + Join(rest, sep)
    decreases |rest|
  {
    if |rest| == 1 {
      assert ([p] + rest)[..1] == [p];
    } else {
      var front := rest[..|rest| - 1];
      var last := rest[|rest| - 1];
      assert rest == front + [last];
      assert [p] + rest == ([p] + front) + [last];
      JoinCons(p, front, sep);
      JoinSnoc([p] + front, sep, last);
      JoinSnoc(front, sep, last);
    }
  }

  /** The parts written one after the other; defined from the back, the way a printer
      appends them. */
  function Concat(parts: seq<string>): string
  {
    if |parts| == 0 then "" else Concat(parts[..|parts| - 1]) + parts[|parts| - 1]
  }

  /** The first `i + 1` parts written are the first `i` followed by part `i`. */
  lemma ConcatPrefix(parts: seq<string>, i: nat)
    requires i < |parts|
    ensures Concat(parts[..i + 1]) == Concat(parts[..i]) + parts[i]
  {
    assert parts[..i + 1][..i] == parts[..i];
  }

  /** The text of `s` between `prefix` and `suffix`, when `s` starts with the one and ends
      with the other without the two overlapping; none otherwise. */
  function Between(s: string, prefix: string, suffix: string): (r: Option<string>)
    ensures r.Some? ==> prefix + r.value + suffix == s
  {
    if |prefix| + |suffix| <= |s| && s[..|prefix|] == prefix && s[|s| - |suffix|..] == suffix then
      var mid := s[|prefix|..|s| - |suffix|];
      assert s == s[..|prefix|] + mid + s[|s| - |suffix|..];
      Some(mid)
    else None
  }

  /** A text framed by a prefix and a suffix reads back as what lies between them. */
  lemma BetweenFramed(prefix: string, mid: string, suffix: string)
    ensures Between(prefix + mid + suffix, prefix, suffix) == Some(mid)
  {
    var s := prefix + mid + suffix;
    assert s[..|prefix|] == prefix;
    assert s[|s| - |suffix|..] == suffix;
    assert s[|prefix|..|s| - |suffix|] == mid;
  }

  /** The character of a decimal digit. */
  function DigitChar(d: nat): (c: char)
    requires d < 10
    ensures '0' <= c <= '9'
  {
    "0123456789"[d]
  }

  /** The value of a decimal digit character. */
  function DigitValue(c: char): (d: nat)
    requires '0' <= c <= '9'
    ensures d < 10
  {
    (c as int - '0' as int) as nat
  }

  lemma DigitRoundTrip(d: nat)
    requires d < 10
    ensures DigitValue(DigitChar(d)) == d
  {
  }

  predicate IsDigits(s: string)
  {
    forall i :: 0 <= i < |s| ==> '0' <= s[i] <= '9'
  }

  /** Rust's `Display` of an unsigned integer: shortest decimal rendering. */
  function Decimal(n: nat): (s: string)
    ensures |s| >= 1 && IsDigits(s)
    ensures s[0] == '0' ==> n == 0
    decreases n
  {
    if n < 10 then [DigitChar(n)] else Decimal(n / 10) + [DigitChar(n % 10)]
  }

  /** Reads a string of decimal digits back as a number. */
  function ParseDecimal(s: string): nat
    requires IsDigits(s)
  {
    if |s| == 0 then 0 else ParseDecimal(s[..|s| - 1]) * 10 + DigitValue(s[|s| - 1])
  }

  /** Reading back the decimal rendering yields the number rendered. */
  lemma {:induction false} DecimalRoundTrip(n: nat)
    ensures ParseDecimal(Decimal(n)) == n
    decreases n
  {
    var s := Decimal(n);
    if n < 10 {
      DigitRoundTrip(n);
    } else {
      DecimalRoundTrip(n / 10);
      assert s[..|s| - 1] == Decimal(n / 10);
      DigitRoundTrip(n % 10);
    }
  }

  /** Different numbers render differently, so printed list numbers identify their item. */
  lemma DecimalInjective(m: nat, n: nat)
    requires Decimal(m) == Decimal(n)
    ensures m == n
  {
    DecimalRoundTrip(m);
    DecimalRoundTrip(n);
  }
}

=== FILE: toplevel.dfy ===
/** The toplevel listing: which toplevels are listed (those on a workspace, those on a
    display, or all), and the entry printed for each, whose workspace and output lines
    appear only when exactly one workspace, respectively output, of the toplevel is known. */
module Toplevels {
  import opened Wrappers
  import opened Text
  import opened Store
  import opened Outputs
  import opened Workspaces
  import opened Human
  import opened Print

  /** The values `f` yields for the elements of `xs`, in order, skipping those it rejects. */
  function FilterMap<A, B>(xs: seq<A>, f: A -> Option<B>): (r: seq<B>)
    ensures |r| <= |xs|
    ensures |r| == 0 <==> forall i :: 0 <= i < |xs| ==> f(xs[i]).None?
  {
    if |xs| == 0 then []
    else (match f(xs[0]) case Some(y) => [y] case None => []) + FilterMap(xs[1..], f)
  }

  /** The only element of `xs`, when there is exactly one. */
  function ExactlyOne<T>(xs: seq<T>): (r: Option<T>)
    ensures r.Some? <==> |xs| == 1
    ensures r.Some? ==> r.value == xs[0]
  {
    if |xs| == 1 then Some(xs[0]) else None
  }

  /** Index `i` is the only element of `xs` that `f` accepts. */
  predicate OnlyAt<A, B>(xs: seq<A>, f: A -> Option<B>, i: int)
  {
    && 0 <= i < |xs|
    && f(xs[i]).Some?
    && forall j :: 0 <= j < |xs| && j != i ==> f(xs[j]).None?
  }

  /** When the first element is rejected, the only accepted element of `xs` is the only
      accepted element of the rest, one place further on. */
  lemma OnlyAtRejectedHead<A, B>(xs: seq<A>, f: A -> Option<B>)
    requires |xs| > 0 && f(xs[0]).None?
    ensures forall i :: OnlyAt(xs, f, i) ==> OnlyAt(xs[1..], f, i - 1)
    ensures forall i :: OnlyAt(xs[1..], f, i) ==> OnlyAt(xs, f, i + 1)
  {
    var rest := xs[1..];
    forall i | OnlyAt(xs, f, i) ensures OnlyAt(rest, f, i - 1) {
      assert rest[i - 1] == xs[i];
      forall j | 0 <= j < |rest| && j != i - 1 ensures f(rest[j]).None? {
        assert rest[j] == xs[j + 1];
      }
    }
    forall i | OnlyAt(rest, f, i) ensures OnlyAt(xs, f, i + 1) {
      assert xs[i + 1] == rest[i];
      forall j | 0 <= j < |xs| && j != i + 1 ensures f(xs[j]).None? {
        if j > 0 {
          assert xs[j] == rest[j - 1];
        }
      }
    }
  }

  /** When the first element is accepted, it is the only one exactly when the rest
      yields nothing, and no later element can be the only one. */
  lemma OnlyAtAcceptedHead<A, B>(xs: seq<A>, f: A -> Option<B>)
    requires |xs| > 0 && f(xs[0]).Some?
    ensures OnlyAt(xs, f, 0) <==> |FilterMap(xs[1..], f)| == 0
    ensures forall i :: OnlyAt(xs, f, i) ==> i == 0
  {
    var rest := xs[1..];
    if |FilterMap(rest, f)| == 0 {
      forall j | 0 < j < |xs| ensures f(xs[j]).None? {
        assert xs[j] == rest[j - 1];
      }
    } else {
      var k :| 0 <= k < |rest| && f(rest[k]).Some?;
      assert xs[k + 1] == rest[k];
    }
  }

  /** Filtering then asking for exactly one value succeeds exactly when one element is
      accepted, and then yields that element's value. */
  lemma {:induction false} ExactlyOneFilterMap<A, B>(xs: seq<A>, f: A -> Option<B>)
    ensures ExactlyOne(FilterMap(xs, f)).Some? <==> exists i :: OnlyAt(xs, f, i)
    ensures forall i :: OnlyAt(xs, f, i) ==> ExactlyOne(FilterMap(xs, f)) == f(xs[i])
    decreases |xs|
  {
    if |xs| > 0 {
      var rest := xs[1..];
      if f(xs[0]).Some? {
        OnlyAtAcceptedHead(xs, f);
        assert FilterMap(xs, f) == [f(xs[0]).value] + FilterMap(rest, f);
        if |FilterMap(rest, f)| == 0 {
          assert OnlyAt(xs, f, 0);
        }
      } else {
        ExactlyOneFilterMap(rest, f);
        OnlyAtRejectedHead(xs, f);
        assert FilterMap(xs, f) == FilterMap(rest, f);
        if exists i :: OnlyAt(rest, f, i) {
          var i :| OnlyAt(rest, f, i);
          assert OnlyAt(xs, f, i + 1);
        }
        forall i | OnlyAt(xs, f, i) ensures ExactlyOne(FilterMap(xs, f)) == f(xs[i]) {
          assert OnlyAt(rest, f, i - 1);
          assert rest[i - 1] == xs[i];
        }
      }
    }
  }

  /** The name of workspace `h`, when it has information. */
  function WorkspaceNameOf(s: Store): Handle -> Option<string>
  {
    (h: Handle) => match WorkspaceInfoOf(s, h) case Some(w) => Some(w.name) case None => None
  }

  /** The display name of output `h`, when it has information. */
  function OutputNameOf(s: Store): Handle -> Option<string>
  {
    (h: Handle) => match OutputInfoOf(s, h) case Some(o) => Some(DisplayName(o)) case None => None
  }

  /** The value of the "workspace" line of toplevel `t`. */
  function WorkspaceField(s: Store, t: ToplevelInfo): Option<string>
  {
    ExactlyOne(FilterMap(t.workspaces, WorkspaceNameOf(s)))
  }

  /** The value of the "output" line of toplevel `t`. */
  function OutputField(s: Store, t: ToplevelInfo): Option<string>
  {
    ExactlyOne(FilterMap(t.outputs, OutputNameOf(s)))
  }

  /** The workspace line is present exactly when one of the toplevel's workspaces has
      information, and then names that workspace; workspaces without information do not
      count either way. */
  lemma WorkspaceFieldExactlyOne(s: Store, t: ToplevelInfo)
    ensures WorkspaceField(s, t).Some? <==>
      exists i :: 0 <= i < |t.workspaces| && WorkspaceInfoOf(s, t.workspaces[i]).Some?
        && forall j :: 0 <= j < |t.workspaces| && j != i ==> WorkspaceInfoOf(s, t.workspaces[j]).None?
    ensures forall i :: (0 <= i < |t.workspaces| && WorkspaceInfoOf(s, t.workspaces[i]).Some?
        && (forall j :: 0 <= j < |t.workspaces| && j != i ==> WorkspaceInfoOf(s, t.workspaces[j]).None?)) ==>
        WorkspaceField(s, t) == Some(WorkspaceInfoOf(s, t.workspaces[i]).value.name)
  {
    ExactlyOneFilterMap(t.workspaces, WorkspaceNameOf(s));
  }

  /** The output line is present exactly when one of the toplevel's outputs has
      information, and then carries that output's display name. */
  lemma OutputFieldExactlyOne(s: Store, t: ToplevelInfo)
    ensures OutputField(s, t).Some? <==>
      exists i :: 0 <= i < |t.outputs| && OutputInfoOf(s, t.outputs[i]).Some?
        && forall j :: 0 <= j < |t.outputs| && j != i ==> OutputInfoOf(s, t.outputs[j]).None?
    ensures forall i :: (0 <= i < |t.outputs| && OutputInfoOf(s, t.outputs[i]).Some?
        && (forall j :: 0 <= j < |t.outputs| && j != i ==> OutputInfoOf(s, t.outputs[j]).None?)) ==>
        OutputField(s, t) == Some(DisplayName(OutputInfoOf(s, t.outputs[i]).value))
  {
    ExactlyOneFilterMap(t.outputs, OutputNameOf(s));
  }

  /** Why a listing stops before printing anything. */
  datatype ListError =
    | WorkspaceUnresolved(error: ResolveError)  // the workspace filter names no single workspace
    | DisplayUnknown(message: string)  // the display filter names no known output

  /** The toplevels a listing shows: with a workspace name, those on the workspace it
      resolves to (the display, if any, only narrows that resolution); with only a
      display, those on the first output of that display name; otherwise all of them. */
  function ListedToplevels(s: Store, workspace: Option<string>, display: Option<string>): (r: Result<seq<ToplevelInfo>, ListError>)
    ensures r.Ok? ==> |r.value| <= |s.toplevels|
  {
    match workspace
    case Some(name) =>
      (match GetWorkspace(s, WorkspaceIdent(name, display))
       case Err(e) => Err(WorkspaceUnresolved(e))
       case Ok(res) => Ok(WorkspaceToplevels(res.workspace, s)))
    case None =>
      match display
      case Some(d) =>
        (match Find(s, d)
         case None => Err(DisplayUnknown("unknown display: " + d))
         case Some(found) => Ok(Select(s.toplevels, OnOutput(found.0))))
      case None => Ok(s.toplevels)
  }

  /** With a workspace name, resolution failures are the listing's failures; otherwise the
      listing is exactly the toplevels on the resolved workspace, in store order. */
  lemma ListedByWorkspace(s: Store, name: string, display: Option<string>)
    ensures var r := ListedToplevels(s, Some(name), display);
      var g := GetWorkspace(s, WorkspaceIdent(name, display));
      && (r.Err? <==> g.Err?)
      && (g.Err? ==> r == Err(WorkspaceUnresolved(g.error)))
      && (g.Ok? ==> r == Ok(Select(s.toplevels, OnWorkspace(g.value.workspace.handle))))
      && (g.Ok? ==> forall t :: t in r.value <==> t in s.toplevels && g.value.workspace.handle in t.workspaces)
  {
  }

  /** With a workspace name the display never filters toplevels by output: two displays
      under which the name resolves to the same workspace list the same toplevels. */
  lemma DisplayOnlyNarrowsLookup(s: Store, name: string, d1: Option<string>, d2: Option<string>)
    requires GetWorkspace(s, WorkspaceIdent(name, d1)).Ok?
    requires GetWorkspace(s, WorkspaceIdent(name, d2)).Ok?
    requires GetWorkspace(s, WorkspaceIdent(name, d1)).value.workspace.handle
          == GetWorkspace(s, WorkspaceIdent(name, d2)).value.workspace.handle
    ensures ListedToplevels(s, Some(name), d1) == ListedToplevels(s, Some(name), d2)
  {
  }

  /** With only a display: an unknown display is the error "unknown display: <display>";
      otherwise the listing is exactly the toplevels on the first output of that name, in
      store order. */
  lemma ListedByDisplay(s: Store, d: string)
    ensures var r := ListedToplevels(s, None, Some(d));
      && (r == Err(DisplayUnknown("unknown display: " + d)) <==>
           forall k :: 0 <= k < |s.outputs| ==> !Shows(s, s.outputs[k], d))
      && (r.Err? ==> r == Err(DisplayUnknown("unknown display: " + d)))
      && (r.Ok? ==>
           && Find(s, d).Some?
           && r == Ok(Select(s.toplevels, OnOutput(Find(s, d).value.0)))
           && forall t :: t in r.value <==> t in s.toplevels && Find(s, d).value.0 in t.outputs)
  {
  }

  /** Without a filter every toplevel is listed, in store order; the unfiltered listing
      agrees with selecting every toplevel. */
  lemma ListedEverything(s: Store)
    ensures ListedToplevels(s, None, None) == Ok(s.toplevels)
    ensures ListedToplevels(s, None, None) == Ok(Select(s.toplevels, Everything))
  {
    SelectEverything(s.toplevels);
  }

  /** The entry of toplevel `t`, numbered `n`, in a list whose items are indented by
      `indent`: the number, the four always-present lines, the workspace and output lines
      when they exist, and the empty line that closes the entry. */
  function EntryText(s: Store, indent: string, t: ToplevelInfo, n: nat): string
  {
    indent + Decimal(n) + ":\n"
    + (indent + "Title" + ": " + t.title + "\n")
    + (indent + "AppId" + ": " + t.appId + "\n")
    + (indent + "Unique Identifier" + ": " + t.identifier + "\n")
    + (indent + "State" + ": " + t.stateDebug + "\n")
    + (match WorkspaceField(s, t) case Some(w) => indent + "workspace" + ": " + w + "\n" case None => "")
    + (match OutputField(s, t) case Some(o) => indent + "output" + ": " + o + "\n" case None => "")
    + "\n"
  }

  /** The entries of `ts`, in order, numbered from 1. */
  function Entries(s: Store, indent: string, ts: seq<ToplevelInfo>): (r: seq<string>)
    ensures |r| == |ts|
  {
    seq(|ts|, i requires 0 <= i < |ts| => EntryText(s, indent, ts[i], i + 1))
  }

  /** The whole listing on a printer with indent `indent`: the "Toplevels:" header, one
      entry per listed toplevel one level deeper, and the list's closing empty line. */
  function ListingText(s: Store, indent: string, ts: seq<ToplevelInfo>): string
  {
    indent + "Toplevels:\n" + Concat(Entries(s, INDENT + indent, ts)) + "\n"
  }

  /** Prints one entry through the printer operations: a struct opened in the list, its
      fields, the optional lines, and the struct's drop. */
  method PrintEntry(s: Store, l: ListPrinter, t: ToplevelInfo) returns (r: Step<ListPrinter>)
    requires !l.options.inline
    ensures r.next == l.(counter := l.counter + 1)
    ensures r.out == EntryText(s, l.indent, t, l.counter + 1)
  {
    var sub := ListSubStruct(l);
    var c := sub.value.child;
    var out := sub.value.out;
    out := out + Field(c, "Title", t.title);
    out := out + Field(c, "AppId", t.appId);
    out := out + Field(c, "Unique Identifier", t.identifier);
    out := out + Field(c, "State", t.stateDebug);
    out := out + Optional(c, "workspace", WorkspaceField(s, t));
    out := out + Optional(c, "output", OutputField(s, t));
    out := out + SaveDrop(c).out;
    r := Step(sub.value.parent, out);
  }

  /** Prints one entry per toplevel of `ts`, in order, on a fresh list. */
  method PrintEntries(s: Store, l: ListPrinter, ts: seq<ToplevelInfo>) returns (r: Step<ListPrinter>)
    requires !l.options.inline && l.counter == 0
    ensures r.next == l.(counter := |ts|)
    ensures r.out == Concat(Entries(s, l.indent, ts))
  {
    ghost var entries := Entries(s, l.indent, ts);
    var cur := l;
    var out := "";
    var i := 0;
    while i < |ts|
      invariant 0 <= i <= |ts|
      invariant cur == l.(counter := i)
      invariant out == Concat(entries[..i])
    {
      var entry := PrintEntry(s, cur, ts[i]);
      assert entry.out == entries[i];
      ConcatPrefix(entries, i);
      cur := entry.next;
      out := out + entry.out;
      i := i + 1;
    }
    assert entries[..i] == entries;
    r := Step(cur, out);
  }

  /** The toplevel listing: either the error that stops it before anything is printed, or
      the listing text of exactly the listed toplevels, in order. */
  method List(s: Store, p: Printer, workspace: Option<string>, display: Option<string>)
    returns (r: Result<string, ListError>)
    ensures r.Err? <==> ListedToplevels(s, workspace, display).Err?
    ensures r.Err? ==> r.error == ListedToplevels(s, workspace, display).error
    ensures r.Ok? ==> r.value == ListingText(s, p.indent, ListedToplevels(s, workspace, display).value)
  {
    var listed := ListedToplevels(s, workspace, display);
    if listed.Err? {
      return Err(listed.error);
    }
    var sub := SubList(p, "Toplevels");
    assert sub.out == p.indent + "Toplevels:\n";
    var entries := PrintEntries(s, sub.child, listed.value);
    assert entries.out == Concat(Entries(s, INDENT + p.indent, listed.value));
    assert ListSaveDrop(entries.next).out == "\n";
    r := Ok(sub.out + entries.out + ListSaveDrop(entries.next).out);
  }
}

=== FILE: workspace.dfy ===
/** Workspace resolution and the reorder command: resolving a (name, optional display)
    pair to a group, an index and a workspace, and translating a 1-based absolute target
    position into the single relative `move_before`/`move_after` request plus `commit` that
    the workspace manager understands. */
module Workspaces {
  import opened Wrappers
  import opened Store
  import opened Outputs

  /** How the user names a workspace: its name, optionally narrowed by a display. */
  datatype WorkspaceIdent = WorkspaceIdent(name: string, display: Option<string>)

  /** Why a workspace could not be resolved; each case is a distinct error message. */
  datatype ResolveError =
    | UnknownDisplay(display: string)  // no group has an output with that display name
    | NotOnDisplay                     // the group of that display has no workspace of that name
    | NotFound                         // without display: no workspace has that name
    | Ambiguous                        // without display: several workspaces have that name
    | NoGroup                          // the uniquely named workspace is in no group

  /** A resolved workspace: the group it was found in, an index, and its information.
      With a display, `index` is the workspace's position among the group's members;
      without one, it is the position of the GROUP among all groups (see `GetWorkspace`). */
  datatype Resolved = Resolved(group: WorkspaceGroup, index: nat, workspace: WorkspaceInfo)

  /** Some output of group `g` has information and is called `display`. */
  predicate GroupShows(s: Store, g: WorkspaceGroup, display: string)
  {
    exists k :: 0 <= k < |g.outputs| && Shows(s, g.outputs[k], display)
  }

  /** Index of the first group of `groups` that shows `display`. */
  function FirstGroupShowing(s: Store, groups: seq<WorkspaceGroup>, display: string): (r: Option<nat>)
    ensures r.Some? ==> r.value < |groups| && GroupShows(s, groups[r.value], display)
    ensures r.Some? ==> forall j :: 0 <= j < r.value ==> !GroupShows(s, groups[j], display)
    ensures r.None? <==> forall j :: 0 <= j < |groups| ==> !GroupShows(s, groups[j], display)
  {
    if |groups| == 0 then None
    else if GroupShows(s, groups[0], display) then Some(0)
    else match FirstGroupShowing(s, groups[1..], display)
      case None => None
      case Some(i) => Some(i + 1)
  }

  /** The first group, in store order, that spans an output called `display`. */
  function GroupForDisplay(s: Store, display: string): (r: Option<WorkspaceGroup>)
    ensures r.None? <==> forall j :: 0 <= j < |s.groups| ==> !GroupShows(s, s.groups[j], display)
    ensures r.Some? ==> GroupShows(s, r.value, display)
    ensures r.Some? ==>
      exists j :: 0 <= j < |s.groups| && s.groups[j] == r.value &&
        forall i :: 0 <= i < j ==> !GroupShows(s, s.groups[i], display)
  {
    match FirstGroupShowing(s, s.groups, display)
    case None => None
    case Some(j) => Some(s.groups[j])
  }

  /** Workspace handle `h` has information and that information is named `name`. */
  predicate Named(s: Store, h: Handle, name: string)
  {
    WorkspaceInfoOf(s, h).Some? && WorkspaceInfoOf(s, h).value.name == name
  }

  /** Index of the first member of `members` that has information named `name`; members
      without information are skipped but still counted. */
  function FirstMemberNamed(s: Store, members: seq<Handle>, name: string): (r: Option<nat>)
    ensures r.Some? ==> r.value < |members| && Named(s, members[r.value], name)
    ensures r.Some? ==> forall j :: 0 <= j < r.value ==> !Named(s, members[j], name)
    ensures r.None? <==> forall j :: 0 <= j < |members| ==> !Named(s, members[j], name)
  {
    if |members| == 0 then None
    else if Named(s, members[0], name) then Some(0)
    else match FirstMemberNamed(s, members[1..], name)
      case None => None
      case Some(i) => Some(i + 1)
  }

  /** How many mirrored workspaces carry `name`. */
  function CountNamed(ws: seq<WorkspaceInfo>, name: string): nat
  {
    if |ws| == 0 then 0
    else (if ws[0].name == name then 1 else 0) + CountNamed(ws[1..], name)
  }

  /** Index of the first mirrored workspace carrying `name`. */
  function FirstNamed(ws: seq<WorkspaceInfo>, name: string): (r: Option<nat>)
    ensures r.Some? ==> r.value < |ws| && ws[r.value].name == name
    ensures r.Some? ==> forall j :: 0 <= j < r.value ==> ws[j].name != name
    ensures r.None? <==> CountNamed(ws, name) == 0
  {
    if |ws| == 0 then None
    else if ws[0].name == name then Some(0)
    else match FirstNamed(ws[1..], name)
      case None => None
      case Some(i) => Some(i + 1)
  }

  /** A name carried by exactly one workspace is carried by that workspace and no other. */
  lemma {:induction false} CountNamedOne(ws: seq<WorkspaceInfo>, name: string)
    requires CountNamed(ws, name) == 1
    ensures FirstNamed(ws, name).Some?
    ensures forall j :: 0 <= j < |ws| && ws[j].name == name ==> j == FirstNamed(ws, name).value
    decreases |ws|
  {
    if ws[0].name == name {
      CountNamedZero(ws[1..], name);
      forall j | 0 < j < |ws| ensures ws[j].name != name {
        assert ws[j] == ws[1..][j - 1];
      }
    } else {
      CountNamedOne(ws[1..], name);
      forall j | 0 <= j < |ws| && ws[j].name == name ensures j == FirstNamed(ws, name).value {
        assert j > 0;
        assert ws[j] == ws[1..][j - 1];
      }
    }
  }

  /** No workspace carries a name whose count is zero. */
  lemma {:induction false} CountNamedZero(ws: seq<WorkspaceInfo>, name: string)
    requires CountNamed(ws, name) == 0
    ensures forall j :: 0 <= j < |ws| ==> ws[j].name != name
    decreases |ws|
  {
    if |ws| > 0 {
      CountNamedZero(ws[1..], name);
      forall j | 0 < j < |ws| ensures ws[j].name != name {
        assert ws[j] == ws[1..][j - 1];
      }
    }
  }

  /** Index of the first group whose member list contains workspace `h`. */
  function FirstGroupContaining(groups: seq<WorkspaceGroup>, h: Handle): (r: Option<nat>)
    ensures r.Some? ==> r.value < |groups| && h in groups[r.value].workspaces
    ensures r.Some? ==> forall j :: 0 <= j < r.value ==> h !in groups[j].workspaces
    ensures r.None? <==> forall j :: 0 <= j < |groups| ==> h !in groups[j].workspaces
  {
    if |groups| == 0 then None
    else if h in groups[0].workspaces then Some(0)
    else match FirstGroupContaining(groups[1..], h)
      case None => None
      case Some(i) => Some(i + 1)
  }

  /** Resolves a workspace identifier against the mirror.

      With a display: the first group spanning an output of that display name, then the
      first member of that group, by position, whose information carries the name; the
      index is that member position.

      Without a display: the name must be carried by exactly one workspace; the group is
      the first one listing it and the index is that GROUP's position among all groups,
      not the member position. */
  function GetWorkspace(s: Store, ident: WorkspaceIdent): (r: Result<Resolved, ResolveError>)
    ensures r.Ok? ==> r.value.workspace.name == ident.name
  {
    match ident.display
    case Some(display) =>
      (match GroupForDisplay(s, display)
       case None => Err(UnknownDisplay(display))
       case Some(group) =>
         match FirstMemberNamed(s, group.workspaces, ident.name)
         case None => Err(NotOnDisplay)
         case Some(i) => Ok(Resolved(group, i, WorkspaceInfoOf(s, group.workspaces[i]).value)))
    case None =>
      var count := CountNamed(s.workspaces, ident.name);
      if count == 0 then Err(NotFound)
      else if count >= 2 then Err(Ambiguous)
      else
        var workspace := s.workspaces[FirstNamed(s.workspaces, ident.name).value];
        match FirstGroupContaining(s.groups, workspace.handle)
        case None => Err(NoGroup)
        case Some(gi) => Ok(Resolved(s.groups[gi], gi, workspace))
  }

  /** Resolution with a display: an unknown display and a name missing from that display's
      group are the two failures; on success the index is the position of the first
      member carrying the name, and members without information before it are counted. */
  lemma GetWorkspaceWithDisplay(s: Store, ident: WorkspaceIdent)
    requires ident.display.Some?
    ensures var r := GetWorkspace(s, ident);
      && (r == Err(UnknownDisplay(ident.display.value)) <==>
           forall j :: 0 <= j < |s.groups| ==> !GroupShows(s, s.groups[j], ident.display.value))
      && (r == Err(NotOnDisplay) <==>
           && GroupForDisplay(s, ident.display.value).Some?
           && forall j :: 0 <= j < |GroupForDisplay(s, ident.display.value).value.workspaces| ==>
                !Named(s, GroupForDisplay(s, ident.display.value).value.workspaces[j], ident.name))
      && (r.Err? ==> r.error.UnknownDisplay? || r.error.NotOnDisplay?)
      && (r.Ok? ==>
           && GroupForDisplay(s, ident.display.value) == Some(r.value.group)
           && r.value.index < |r.value.group.workspaces|
           && r.value.group.workspaces[r.value.index] == r.value.workspace.handle
           && WorkspaceInfoOf(s, r.value.workspace.handle) == Some(r.value.workspace)
           && (forall j :: 0 <= j < r.value.index ==> !Named(s, r.value.group.workspaces[j], ident.name)))
  {
  }

  /** Resolution without a display: the name must be carried by exactly one workspace
      (none and several are distinct failures), some group must list it, and the index
      is that group's position among all groups. */
  lemma GetWorkspaceWithoutDisplay(s: Store, ident: WorkspaceIdent)
    requires ident.display.None?
    ensures var r := GetWorkspace(s, ident);
      && (r == Err(NotFound) <==> CountNamed(s.workspaces, ident.name) == 0)
      && (r == Err(Ambiguous) <==> CountNamed(s.workspaces, ident.name) >= 2)
      && (r == Err(NoGroup) <==>
           && CountNamed(s.workspaces, ident.name) == 1
           && forall j :: 0 <= j < |s.groups| ==>
                s.workspaces[FirstNamed(s.workspaces, ident.name).value].handle !in s.groups[j].workspaces)
      && (r.Err? ==> r.error.NotFound? || r.error.Ambiguous? || r.error.NoGroup?)
      && (r.Ok? ==>
           && CountNamed(s.workspaces, ident.name) == 1
           && r.value.workspace in s.workspaces
           && (forall j :: 0 <= j < |s.workspaces| && s.workspaces[j].name == ident.name ==>
                 s.workspaces[j] == r.value.workspace)
           && r.value.index < |s.groups|
           && s.groups[r.value.index] == r.value.group
           && r.value.workspace.handle in r.value.group.workspaces
           && (forall j :: 0 <= j < r.value.index ==> r.value.workspace.handle !in s.groups[j].workspaces))
  {
    if CountNamed(s.workspaces, ident.name) == 1 {
      CountNamedOne(s.workspaces, ident.name);
    }
  }

  /** The tiling states the protocol defines. */
  datatype TilingState = TilingEnabled | TilingDisabled

  /** The protocol state of a reported tiling value: a raw value the protocol does not
      define has none. */
  function Recognised(v: TilingValue): (r: Option<TilingState>)
    ensures r.None? <==> v.Unrecognised?
  {
    match v
    case Enabled => Some(TilingEnabled)
    case Disabled => Some(TilingDisabled)
    case Unrecognised(_) => None
  }

  /** The recognised tiling state of a workspace: none when nothing was reported or the
      reported value is not recognised. */
  function KnownTiling(w: WorkspaceInfo): Option<TilingState>
  {
    match w.tiling
    case None => None
    case Some(v) => Recognised(v)
  }

  /** True only when the recognised tiling state is the enabled one. */
  function IsWorkspaceTiling(w: WorkspaceInfo): bool
  {
    match KnownTiling(w)
    case Some(TilingEnabled) => true
    case _ => false
  }

  /** In terms of the reported value: tiling exactly when the enabled value was reported,
      so disabled, unrecognised and absent states all read as not tiling. */
  lemma IsWorkspaceTilingCases(w: WorkspaceInfo)
    ensures IsWorkspaceTiling(w) <==> w.tiling == Some(Enabled)
  {
  }

  /** Only the recognised state matters: two workspaces whose reported values are
      recognised alike read alike, whatever unrecognised raw values they carry. */
  lemma IsWorkspaceTilingKnownOnly(w1: WorkspaceInfo, w2: WorkspaceInfo)
    requires KnownTiling(w1) == KnownTiling(w2)
    ensures IsWorkspaceTiling(w1) == IsWorkspaceTiling(w2)
    ensures w1.tiling.Some? && w1.tiling.value.Unrecognised? ==> !IsWorkspaceTiling(w2)
  {
  }

  /** The groups listing workspace `w`, in store order. */
  function GetGroupsForWorkspace(w: WorkspaceInfo, s: Store): (r: seq<WorkspaceGroup>)
    ensures forall g :: g in r <==> g in s.groups && w.handle in g.workspaces
  {
    GroupsContaining(s.groups, w.handle)
  }

  /** The toplevels on workspace `w`, in store order. */
  function WorkspaceToplevels(w: WorkspaceInfo, s: Store): (r: seq<ToplevelInfo>)
    ensures forall t :: t in r <==> t in s.toplevels && w.handle in t.workspaces
  {
    Select(s.toplevels, OnWorkspace(w.handle))
  }

  /** The value passed as the axis argument of both move requests; the compositor only
      acts on 0. */
  const AXIS: nat := 0

  /** A request sent to the server: a staged relative move of a workspace (by its COSMIC
      handle) before or after a reference workspace, or the manager's commit. */
  datatype Request =
    | MoveBefore(workspace: Handle, other: Handle, axis: nat)
    | MoveAfter(workspace: Handle, other: Handle, axis: nat)
    | Commit(manager: Handle)

  /** Why `move_to` returned without sending anything (each is logged, none is an error
      to the caller). */
  datatype SkipReason =
    | NoManager
    | Unresolved(error: ResolveError)
    | UnknownTargetDisplay(display: string)
    | AlreadyAtPosition
    | NoCosmicHandle
    | EmptyTarget  // only in the corrected translation: an empty group offers no reference

  /** Where `move_to` aborts the process: the length subtraction on an empty destination
      group, or the `expect` on a reference index past the end of the destination. */
  datatype PanicReason = EmptyDestination | ReferenceOutOfRange(index: nat)

  /** What one call of `move_to` does: nothing, a request log, or a panic. */
  datatype MoveOutcome = Skipped(reason: SkipReason) | Issued(requests: seq<Request>) | Panicked(panic: PanicReason)

  /** The 0-based target position for a 1-based `target` in a group of `len` members:
      0 stays 0, anything else loses one, and a position past the end becomes the last. */
  function NormalizePosition(target: nat, len: nat): (pos: nat)
    requires len >= 1
    ensures pos < len
    ensures target == 0 ==> pos == 0
    ensures 1 <= target <= len ==> pos == target - 1
    ensures target > len ==> pos == len - 1
  {
    var position := if target == 0 then 0 else target - 1;
    if position >= len then len - 1 else position
  }

  /** A normalised position, written back 1-based, normalises to itself: the conversion
      is a retraction onto the valid positions. */
  lemma NormalizePositionRoundTrip(target: nat, len: nat)
    requires len >= 1
    ensures NormalizePosition(NormalizePosition(target, len) + 1, len) == NormalizePosition(target, len)
  {
  }

  /** The destination group: the group of the target display when one is given (none if
      that display is unknown), else the workspace's own group. */
  function Destination(s: Store, orig: WorkspaceGroup, targetDisplay: Option<string>): (r: Option<WorkspaceGroup>)
    ensures targetDisplay.None? ==> r == Some(orig)
    ensures targetDisplay.Some? ==> r == GroupForDisplay(s, targetDisplay.value)
  {
    match targetDisplay
    case None => Some(orig)
    case Some(d) => GroupForDisplay(s, d)
  }

  /** The index of the reference member for a move to `pos`, and whether the move goes
      after it: before the member at index 1 for position 0, else after the member at
      `pos - 1`. */
  function Reference(pos: nat): (r: (nat, bool))
    ensures pos == 0 ==> r == (1, false)
    ensures pos > 0 ==> r.0 + 1 == pos && r.1
  {
    if pos == 0 then (1, false) else (pos - 1, true)
  }

  /** Moves the workspace named by `ident` to the 1-based `target` position of its own
      group, or of the group of `targetDisplay` when one is given. The steps and their
      order are those of the command: manager present, workspace resolved, target display
      known, destination non-empty, position normalised, no-op check, reference member
      looked up, COSMIC handle present; then one move request and one commit. */
  function MoveTo(s: Store, ident: WorkspaceIdent, target: nat, targetDisplay: Option<string>): (r: MoveOutcome)
    ensures s.manager.None? ==> r == Skipped(NoManager)
    ensures s.manager.Some? && GetWorkspace(s, ident).Err? ==>
      r == Skipped(Unresolved(GetWorkspace(s, ident).error))
    ensures r.Issued? ==>
      && s.manager.Some?
      && GetWorkspace(s, ident).Ok?
      && GetWorkspace(s, ident).value.workspace.cosmicHandle.Some?
      && |r.requests| == 2
      && r.requests[1] == Commit(s.manager.value)
      && (r.requests[0].MoveBefore? || r.requests[0].MoveAfter?)
      && r.requests[0].workspace == GetWorkspace(s, ident).value.workspace.cosmicHandle.value
      && r.requests[0].axis == AXIS
    ensures r.Issued? || r.Panicked? ==>
      && Destination(s, GetWorkspace(s, ident).value.group, targetDisplay).Some?
      && var dest := Destination(s, GetWorkspace(s, ident).value.group, targetDisplay).value;
         (r == Panicked(EmptyDestination) <==> |dest.workspaces| == 0)
  {
    if s.manager.None? then Skipped(NoManager)
    else match GetWorkspace(s, ident)
      case Err(e) => Skipped(Unresolved(e))
      case Ok(res) =>
        match Destination(s, res.group, targetDisplay)
        case None => Skipped(UnknownTargetDisplay(targetDisplay.value))
        case Some(dest) =>
          var len := |dest.workspaces|;
          if len == 0 then Panicked(EmptyDestination)
          else
            var pos := NormalizePosition(target, len);
            if res.index == pos && res.group.handle == dest.handle then Skipped(AlreadyAtPosition)
            else
              var (other, after) := Reference(pos);
              if other >= len then Panicked(ReferenceOutOfRange(other))
              else match res.workspace.cosmicHandle
                case None => Skipped(NoCosmicHandle)
                case Some(ch) =>
                  var move := if after then MoveAfter(ch, dest.workspaces[other], AXIS)
                              else MoveBefore(ch, dest.workspaces[other], AXIS);
                  Issued([move, Commit(s.manager.value)])
  }

  /** The no-op rule: with a manager, a resolved workspace and a non-empty destination,
      nothing is sent exactly when the normalised position is the current index and the
      destination is the original group. */
  lemma MoveToNoOp(s: Store, ident: WorkspaceIdent, target: nat, targetDisplay: Option<string>,
                   res: Resolved, dest: WorkspaceGroup)
    requires s.manager.Some?
    requires GetWorkspace(s, ident) == Ok(res)
    requires Destination(s, res.group, targetDisplay) == Some(dest)
    requires |dest.workspaces| >= 1
    ensures var pos := NormalizePosition(target, |dest.workspaces|);
      MoveTo(s, ident, target, targetDisplay) == Skipped(AlreadyAtPosition) <==>
        res.index == pos && res.group.handle == dest.handle
  {
  }

  /** The choice of reference member: position 0 moves before the member at index 1,
      any other position moves after the member just before it. The move is the only
      request besides the commit that follows it. */
  lemma MoveToReference(s: Store, ident: WorkspaceIdent, target: nat, targetDisplay: Option<string>,
                        res: Resolved, dest: WorkspaceGroup)
    requires s.manager.Some?
    requires GetWorkspace(s, ident) == Ok(res)
    requires Destination(s, res.group, targetDisplay) == Some(dest)
    requires |dest.workspaces| >= 1
    requires !(res.index == NormalizePosition(target, |dest.workspaces|) && res.group.handle == dest.handle)
    ensures var pos := NormalizePosition(target, |dest.workspaces|);
      var r := MoveTo(s, ident, target, targetDisplay);
      && (pos == 0 && |dest.workspaces| == 1 ==> r == Panicked(ReferenceOutOfRange(1)))
      && (res.workspace.cosmicHandle.None? && (pos > 0 || |dest.workspaces| > 1) ==> r == Skipped(NoCosmicHandle))
      && (res.workspace.cosmicHandle.Some? && pos == 0 && |dest.workspaces| > 1 ==>
            r == Issued([MoveBefore(res.workspace.cosmicHandle.value, dest.workspaces[1], AXIS), Commit(s.manager.value)]))
      && (res.workspace.cosmicHandle.Some? && pos > 0 ==>
            r == Issued([MoveAfter(res.workspace.cosmicHandle.value, dest.workspaces[pos - 1], AXIS), Commit(s.manager.value)]))
  {
  }

  /** Every exit before the requests are built sends nothing: an unknown target display
      is reported as such. */
  lemma MoveToUnknownTarget(s: Store, ident: WorkspaceIdent, target: nat, display: string, res: Resolved)
    requires s.manager.Some?
    requires GetWorkspace(s, ident) == Ok(res)
    requires forall j :: 0 <= j < |s.groups| ==> !GroupShows(s, s.groups[j], display)
    ensures MoveTo(s, ident, target, Some(display)) == Skipped(UnknownTargetDisplay(display))
  {
  }

  /** A move within the workspace's own group never runs past the end of the group for
      its reference member, provided the current index is a valid member index. */
  lemma {:induction false} MoveWithinGroupReferenceInRange(s: Store, ident: WorkspaceIdent, target: nat, res: Resolved)
    requires GetWorkspace(s, ident) == Ok(res)
    requires res.index < |res.group.workspaces|
    ensures !MoveTo(s, ident, target, None).Panicked?
  {
    var len := |res.group.workspaces|;
    if s.manager.Some? {
      var pos := NormalizePosition(target, len);
      if !(res.index == pos) && pos == 0 {
        assert res.index >= 1;
        assert Reference(pos).0 < len;
      }
    }
  }

  /** With a display the index is a member index, so a move within the group never
      panics. */
  lemma MoveWithDisplayWithinGroupNeverPanics(s: Store, ident: WorkspaceIdent, target: nat)
    requires ident.display.Some?
    ensures !MoveTo(s, ident, target, None).Panicked?
  {
    GetWorkspaceWithDisplay(s, ident);
    if GetWorkspace(s, ident).Ok? {
      MoveWithinGroupReferenceInRange(s, ident, target, GetWorkspace(s, ident).value);
    }
  }
}

=== FILE: workspace_scenarios.dfy ===
/** Concrete scenarios for workspace resolution and reordering: the documented examples
    of the reorder translation, and the behaviours of the command that follow from its
    index conventions (see "Source quirks" in the README). */
module WorkspaceScenarios {
  import opened Wrappers
  import opened Store
  import opened Outputs
  import opened Workspaces
  import opened Reorder

  const Manager: Handle := 900

  function Ws(h: Handle, name: string): WorkspaceInfo
  {
    WorkspaceInfo(h, name, None, Some(h + 10), None)
  }

  function NamedOutput(name: string): OutputInfo
  {
    OutputInfo(Some(name), "Dell", "U2412")
  }

  /** One display "DP-1" whose group holds `ws`, listed by `handles`. */
  function OneDisplay(ws: seq<WorkspaceInfo>, handles: seq<Handle>): Store
  {
    Store([100], map[100 := NamedOutput("DP-1")], [WorkspaceGroup(50, [100], handles)], ws, [], Some(Manager))
  }

  function Three(): Store
  {
    OneDisplay([Ws(1, "A"), Ws(2, "B"), Ws(3, "C")], [1, 2, 3])
  }

  function Four(): Store
  {
    OneDisplay([Ws(1, "A"), Ws(2, "B"), Ws(3, "C"), Ws(4, "D")], [1, 2, 3, 4])
  }

  /** In `Three`, workspace `n` of A, B, C resolves on "DP-1" to member index `n - 1`. */
  lemma ResolveInThree(name: string, h: Handle)
    requires (name, h) == ("A", 1) || (name, h) == ("B", 2)
    ensures GetWorkspace(Three(), WorkspaceIdent(name, Some("DP-1")))
         == Ok(Resolved(Three().groups[0], h - 1, Ws(h, name)))
  {
    var s := Three();
    OneDisplayShowsItsGroup(s.workspaces, [1, 2, 3]);
    var hs: seq<Handle> := [1, 2, 3];
    assert s.groups[0].workspaces == hs;
    assert WorkspaceInfoOf(s, 1) == Some(Ws(1, "A"));
    assert WorkspaceInfoOf(s, 2) == Some(Ws(2, "B"));
    assert Named(s, hs[h - 1], name);
    assert FirstMemberNamed(s, hs, name) == Some(h - 1);
  }

  /** Group [A, B, C]: moving A to position 3 moves it after B. */
  lemma MoveToEndOfThree()
    ensures MoveTo(Three(), WorkspaceIdent("A", Some("DP-1")), 3, None)
         == Issued([MoveAfter(11, 2, AXIS), Commit(Manager)])
  {
    var s := Three();
    ResolveInThree("A", 1);
    var res := Resolved(s.groups[0], 0, Ws(1, "A"));
    MoveToReference(s, WorkspaceIdent("A", Some("DP-1")), 3, None, res, res.group);
  }

  /** Group [A, B, C]: moving B to position 1 asks to move B before the member at index 1,
      which is B itself, so the request cannot bring B to the front. */
  lemma FrontMoveRelativeToItself()
    ensures MoveTo(Three(), WorkspaceIdent("B", Some("DP-1")), 1, None)
         == Issued([MoveBefore(12, 2, AXIS), Commit(Manager)])
    ensures Three().groups[0].workspaces[1] == Ws(2, "B").handle
  {
    var s := Three();
    ResolveInThree("B", 2);
    var res := Resolved(s.groups[0], 1, Ws(2, "B"));
    MoveToReference(s, WorkspaceIdent("B", Some("DP-1")), 1, None, res, res.group);
  }

  /** Group [A, B, C]: moving A to position 2 asks to move A after the member at index 0,
      which is A itself. Whether that moves A at all depends on how the compositor reads
      a request whose reference is the moved workspace. */
  lemma ForwardMoveRelativeToItself()
    ensures MoveTo(Three(), WorkspaceIdent("A", Some("DP-1")), 2, None)
         == Issued([MoveAfter(11, 1, AXIS), Commit(Manager)])
    ensures Three().groups[0].workspaces[0] == Ws(1, "A").handle
  {
    var s := Three();
    ResolveInThree("A", 1);
    var res := Resolved(s.groups[0], 0, Ws(1, "A"));
    MoveToReference(s, WorkspaceIdent("A", Some("DP-1")), 2, None, res, res.group);
  }

  /** Group [A, B, C, D]: moving D to position 1 moves it before B, the member at
      index 1, not before A. */
  lemma MoveToFrontOfFour()
    ensures MoveTo(Four(), WorkspaceIdent("D", Some("DP-1")), 1, None)
         == Issued([MoveBefore(14, 2, AXIS), Commit(Manager)])
  {
    ResolveLastOfFour();
    MoveFourthToFront(Four(), WorkspaceIdent("D", Some("DP-1")), Resolved(Four().groups[0], 3, Ws(4, "D")));
  }

  /** Any workspace resolved as the last of the members [1, 2, 3, 4] and moved to position 1
      is placed before member 2, the one at index 1. */
  lemma MoveFourthToFront(s: Store, ident: WorkspaceIdent, res: Resolved)
    requires s.manager == Some(Manager)
    requires GetWorkspace(s, ident) == Ok(res)
    requires res.group.workspaces == [1, 2, 3, 4] && res.index == 3
    requires res.workspace.cosmicHandle == Some(14)
    ensures MoveTo(s, ident, 1, None) == Issued([MoveBefore(14, 2, AXIS), Commit(Manager)])
  {
    MoveToReference(s, ident, 1, None, res, res.group);
  }

  /** The display "DP-1" of a one-display mirror selects its only group. */
  lemma OneDisplayShowsItsGroup(ws: seq<WorkspaceInfo>, handles: seq<Handle>)
    ensures GroupForDisplay(OneDisplay(ws, handles), "DP-1") == Some(OneDisplay(ws, handles).groups[0])
  {
    var s := OneDisplay(ws, handles);
    assert Shows(s, s.groups[0].outputs[0], "DP-1");
  }

  /** In `Four`, handle 4 is D and handles 1 to 3 carry other names. */
  lemma FourNames()
    ensures WorkspaceInfoOf(Four(), 4) == Some(Ws(4, "D"))
    ensures !Named(Four(), 1, "D") && !Named(Four(), 2, "D") && !Named(Four(), 3, "D")
  {
    var ws := [Ws(1, "A"), Ws(2, "B"), Ws(3, "C"), Ws(4, "D")];
    assert Four().workspaces == ws;
    assert WorkspaceInfoIn(ws[3..], 4) == Some(Ws(4, "D"));
    assert WorkspaceInfoIn(ws[2..], 4) == Some(Ws(4, "D")) by { assert ws[2..][1..] == ws[3..]; }
    assert WorkspaceInfoIn(ws[1..], 4) == Some(Ws(4, "D")) by { assert ws[1..][1..] == ws[2..]; }
    assert WorkspaceInfoIn(ws[1..], 2) == Some(Ws(2, "B"));
    assert WorkspaceInfoIn(ws[1..][1..], 3) == Some(Ws(3, "C"));
  }

  /** D is the fourth member of the group of "DP-1". */
  lemma ResolveLastOfFour()
    ensures GetWorkspace(Four(), WorkspaceIdent("D", Some("DP-1")))
         == Ok(Resolved(Four().groups[0], 3, Ws(4, "D")))
  {
    var s := Four();
    OneDisplayShowsItsGroup(s.workspaces, [1, 2, 3, 4]);
    FourNames();
    var hs: seq<Handle> := [1, 2, 3, 4];
    assert s.groups[0].workspaces == hs;
    assert Named(s, hs[3], "D");
    assert FirstMemberNamed(s, hs, "D") == Some(3);
  }

  /** Moving B to its own position 2 sends nothing. */
  lemma MoveToCurrentPosition()
    ensures MoveTo(Three(), WorkspaceIdent("B", Some("DP-1")), 2, None)
         == Skipped(AlreadyAtPosition)
  {
    var s := Three();
    ResolveInThree("B", 2);
    var res := Resolved(s.groups[0], 1, Ws(2, "B"));
    MoveToNoOp(s, WorkspaceIdent("B", Some("DP-1")), 2, None, res, res.group);
  }

  /** Two displays: "DP-1" with [A, B] and "HDMI-1" with [C], plus "eDP-1" with no
      workspaces at all. */
  function ThreeGroups(): Store
  {
    Store([100, 101, 102],
          map[100 := NamedOutput("DP-1"), 101 := NamedOutput("HDMI-1"), 102 := NamedOutput("eDP-1")],
          [WorkspaceGroup(50, [100], [1, 2]), WorkspaceGroup(51, [101], [3]), WorkspaceGroup(52, [102], [])],
          [Ws(1, "A"), Ws(2, "B"), Ws(3, "C")], [], Some(Manager))
  }

  /** "DP-1" selects the first group of `ThreeGroups`. */
  lemma DisplayDp1()
    ensures GroupForDisplay(ThreeGroups(), "DP-1") == Some(ThreeGroups().groups[0])
  {
    var s := ThreeGroups();
    assert Shows(s, s.groups[0].outputs[0], "DP-1");
  }

  /** "HDMI-1" selects the second group of `ThreeGroups`. */
  lemma DisplayHdmi1()
    ensures GroupForDisplay(ThreeGroups(), "HDMI-1") == Some(ThreeGroups().groups[1])
  {
    var s := ThreeGroups();
    assert !Shows(s, 100, "HDMI-1");
    assert !GroupShows(s, s.groups[0], "HDMI-1");
    assert Shows(s, s.groups[1].outputs[0], "HDMI-1");
  }

  /** "eDP-1" selects the third, empty group of `ThreeGroups`. */
  lemma DisplayEdp1()
    ensures GroupForDisplay(ThreeGroups(), "eDP-1") == Some(ThreeGroups().groups[2])
  {
    var s := ThreeGroups();
    assert !Shows(s, 100, "eDP-1") && !Shows(s, 101, "eDP-1");
    assert !GroupShows(s, s.groups[0], "eDP-1") && !GroupShows(s, s.groups[1], "eDP-1");
    assert Shows(s, s.groups[2].outputs[0], "eDP-1");
  }

  /** A on "DP-1" is member 0 of the first group. */
  lemma ResolveAOnDp1()
    ensures GetWorkspace(ThreeGroups(), WorkspaceIdent("A", Some("DP-1")))
         == Ok(Resolved(ThreeGroups().groups[0], 0, Ws(1, "A")))
  {
    var s := ThreeGroups();
    DisplayDp1();
    assert WorkspaceInfoOf(s, 1) == Some(Ws(1, "A"));
    assert Named(s, s.groups[0].workspaces[0], "A");
  }

  /** C on "HDMI-1" is member 0 of the second group. */
  lemma ResolveCOnHdmi1()
    ensures GetWorkspace(ThreeGroups(), WorkspaceIdent("C", Some("HDMI-1")))
         == Ok(Resolved(ThreeGroups().groups[1], 0, Ws(3, "C")))
  {
    var s := ThreeGroups();
    DisplayHdmi1();
    var ws := s.workspaces;
    assert WorkspaceInfoIn(ws[1..][1..], 3) == Some(Ws(3, "C"));
    assert WorkspaceInfoOf(s, 3) == Some(Ws(3, "C"));
    assert Named(s, s.groups[1].workspaces[0], "C");
  }

  /** Without a display, the index returned for C is the position of its group (1),
      not C's position among the group's members (0). */
  lemma ResolveWithoutDisplayGivesGroupIndex()
    ensures GetWorkspace(ThreeGroups(), WorkspaceIdent("C", None))
         == Ok(Resolved(WorkspaceGroup(51, [101], [3]), 1, Ws(3, "C")))
    ensures ThreeGroups().groups[1].workspaces[0] == 3
  {
    var s := ThreeGroups();
    assert CountNamed(s.workspaces, "C") == 1;
    assert 3 !in s.groups[0].workspaces;
  }

  /** Because of the group index, moving C (alone in its group) to position 1 without
      a display is not recognised as a no-op and panics on the missing reference
      member, while the same move with its display is a no-op. */
  lemma MoveWithoutDisplayPanics()
    ensures MoveTo(ThreeGroups(), WorkspaceIdent("C", None), 1, None) == Panicked(ReferenceOutOfRange(1))
  {
    ResolveWithoutDisplayGivesGroupIndex();
  }

  /** The same move as in `MoveWithoutDisplayPanics`, addressed with C's display, is
      recognised as a no-op. */
  lemma MoveWithDisplayIsNoOp()
    ensures MoveTo(ThreeGroups(), WorkspaceIdent("C", Some("HDMI-1")), 1, None) == Skipped(AlreadyAtPosition)
  {
    var s := ThreeGroups();
    ResolveCOnHdmi1();
    var res := Resolved(s.groups[1], 0, Ws(3, "C"));
    MoveToNoOp(s, WorkspaceIdent("C", Some("HDMI-1")), 1, None, res, res.group);
  }

  /** Moving A to the front of the one-member group of "HDMI-1" needs a member at index 1
      as reference, which does not exist. */
  lemma CrossDisplayIntoSingletonPanics()
    ensures MoveTo(ThreeGroups(), WorkspaceIdent("A", Some("DP-1")), 1, Some("HDMI-1"))
         == Panicked(ReferenceOutOfRange(1))
  {
    var s := ThreeGroups();
    ResolveAOnDp1();
    DisplayHdmi1();
    var res := Resolved(s.groups[0], 0, Ws(1, "A"));
    MoveToReference(s, WorkspaceIdent("A", Some("DP-1")), 1, Some("HDMI-1"), res, s.groups[1]);
  }

  /** Moving into the group of "eDP-1", which has no members, fails computing the last
      position. */
  lemma MoveIntoEmptyGroupPanics()
    ensures MoveTo(ThreeGroups(), WorkspaceIdent("A", Some("DP-1")), 1, Some("eDP-1"))
         == Panicked(EmptyDestination)
  {
    ResolveAOnDp1();
    DisplayEdp1();
  }

  /** As written, the request for position 1 of [A, B, C, D] (D before B) leaves D second:
      the order becomes [A, D, B, C]. */
  lemma FrontMoveLandsSecond()
    ensures MoveTo(Four(), WorkspaceIdent("D", Some("DP-1")), 1, None)
         == Issued([MoveBefore(14, 2, AXIS), Commit(Manager)])
    ensures Apply([1, 2, 3, 4], 4, MoveBefore(14, 2, AXIS)) == [1, 4, 2, 3]
    ensures IndexOf([1, 4, 2, 3], 4) == 1 != NormalizePosition(1, 4)
  {
    MoveToFrontOfFour();
    ApplyBeforeSecondOfFour();
  }

  /** Placing 4 before 2 among [1, 2, 3, 4] gives [1, 4, 2, 3]. */
  lemma ApplyBeforeSecondOfFour()
    ensures Apply([1, 2, 3, 4], 4, MoveBefore(14, 2, AXIS)) == [1, 4, 2, 3]
    ensures IndexOf([1, 4, 2, 3], 4) == 1
  {
    var ms: seq<Handle> := [1, 2, 3, 4];
    assert Without(ms, 4) == [1, 2, 3] by {
      assert ms[1..][1..][1..][1..] == [];
      assert ms[1..][1..][1..] == [4];
      assert ms[1..][1..] == [3, 4];
      assert ms[1..] == [2, 3, 4];
    }
    var rest: seq<Handle> := [1, 2, 3];
    assert rest[1..] == [2, 3];
    assert IndexOf(rest, 2) == 1;
    var r: seq<Handle> := [1, 4, 2, 3];
    assert r[1..] == [4, 2, 3];
  }

  /** As written, moving A to position 3 of [A, B, C] (A after B) leaves A second:
      the order becomes [B, A, C]. */
  lemma ForwardMoveLandsShort()
    ensures MoveTo(Three(), WorkspaceIdent("A", Some("DP-1")), 3, None)
         == Issued([MoveAfter(11, 2, AXIS), Commit(Manager)])
    ensures Apply([1, 2, 3], 1, MoveAfter(11, 2, AXIS)) == [2, 1, 3]
    ensures IndexOf([2, 1, 3], 1) == 1 != NormalizePosition(3, 3)
  {
    MoveToEndOfThree();
    ApplyAfterSecondOfThree();
  }

  /** Placing 1 after 2 among [1, 2, 3] gives [2, 1, 3]. */
  lemma ApplyAfterSecondOfThree()
    ensures Apply([1, 2, 3], 1, MoveAfter(11, 2, AXIS)) == [2, 1, 3]
    ensures IndexOf([2, 1, 3], 1) == 1
  {
    var ms: seq<Handle> := [1, 2, 3];
    assert Without(ms, 1) == [2, 3] by {
      assert ms[1..][1..][1..] == [];
      assert ms[1..][1..] == [3];
      assert ms[1..] == [2, 3];
    }
    var r: seq<Handle> := [2, 1, 3];
    assert r[1..] == [1, 3];
  }
}

=== FILE: wrappers.dfy ===
/** Option and Result: the absent value and the error return of the modelled program. */
module Wrappers {

  /** A value that may be absent (Rust's `Option`). */
  datatype Option<+T> = None | Some(value: T)

  /** A computation that either succeeds with a value or fails with an error (Rust's `Result`). */
  datatype Result<+R, +E> = Ok(value: R) | Err(error: E)
}
